=== FILE: README.md ===
# EditorHelper: version gate, limit relax/restore, synthetic settings

A Dafny model of the core of the EditorHelper mod for the rhythm game's level
editor. The mod has three parts:

- **Version gate** (`Load`). The mod activates only when the host's release
  number matches a rule. The rule comes from an optional override file: a
  comparator token (`>=`, `<=`, `>`, `<`, `==`) followed by a number. The
  default rule is "exactly 76".
- **RELAX / RESTORE** (`ApplyConfig`). The host describes every editable
  property of every level event and settings group with a property
  definition. Each definition has its own bound fields: the alpha flag for
  colours, min/max for ints and floats, min/max vectors for 2-D vectors.
  - RELAX sets every bound to its extreme.
  - RESTORE copies every bound back from the bundled reference dataset. The
    code throws at the first group or property the reference lacks.
- **Synthetic settings** (`CheckMoreEditorSettings`, `StopTweaks`). Two extra
  properties, `useLegacyFlash` and `convertFloorMesh`, are added to or removed
  from the `MiscSettings` group.

## Modules

| file | module | what it holds |
|---|---|---|
| `wrappers.dfy` | `Wrappers` | `Option` and `Result`. |
| `dict.dfy` | `Dict` | A C# `Dictionary<string, V>` as an ordered association list. Covers the indexer read (`Get`, `None` where C# throws), the indexer write (`Put`), `Remove`, and their read-after-write laws. |
| `schema.dfy` | `Schema` | Property kinds, the 32-bit int type, float values (finite, ±∞, NaN), 2-D vectors, property definitions, groups and the two namespaces. The per-kind bound fields are bundled as `Limits`, with a read/write lens over them. |
| `relax.dfy` | `Relax` | RELAX. |
| `restore.dfy` | `Restore` | RESTORE, including the exact partial state a throwing pass leaves. |
| `apply.dfy` | `Apply` | `ApplyConfig`, how RELAX and RESTORE interact, and small concrete scenarios. |
| `decimal.dfy` | `Decimal` | `int.TryParse` (surrounding white space, optional sign, ASCII digits, 32-bit range) and `int.ToString`. |
| `version_gate.dfy` | `VersionGate` | The override-file parse and the activation decision of `Load`. |
| `toggle.dfy` | `Toggle` | Adding and removing the two synthetic settings properties. |

Behaviour of the code that the model keeps as written:

- **RESTORE is not all-or-nothing.** The code mutates group by group and
  property by property, and an absent group or property throws
  `KeyNotFoundException` partway through. `Restore.RestoreNamespaceSpec`
  states exactly what is left behind:
  - earlier groups are fully restored;
  - the failing group is restored up to the failing property;
  - later groups are untouched.

  `Restore.RestoreSchema` adds the order of the two passes. A throw among
  the level events leaves the settings unvisited. A throw among the settings
  comes after every level event was restored. `Apply.PartialRestoreScenario`
  shows a partial pass on a concrete schema.
- **A missing `MiscSettings` group throws.** The indexer throws
  `KeyNotFoundException`, which nothing catches.
- **A null settings table is tolerated only when adding.** When adding, the
  `NullReferenceException` is caught and nothing changes. When removing, the
  exception is not caught.
- **The reference is read on every RESTORE.** The bundled dataset is
  deserialised each time RESTORE runs, not cached.

## Model

| member | source | states |
|---|---|---|
| VersionGate.ParseRule | EditorHelper/Main.cs:38-61 | Reading the override file throws exactly when the file is a lone `>` or `<`, because `Substring(2)` runs past the end. No file gives the exact rule for 76. |
| VersionGate.CutFails | EditorHelper/Main.cs:40-55 | The cut the matched token asks for exceeds the text exactly for a lone `>` or `<`. |
| VersionGate.Gate | EditorHelper/Main.cs:33-80 | Loading fails exactly for a lone `>` or `<` file, whether or not the host's number is known. Without the host's number the mod never activates. Without a file it activates exactly on build 76. |
| VersionGate.SplitToken | EditorHelper/Main.cs:40-55 | The tokens are tried longest first. `>=` and `<=` select their two-character modes, and a `>` or `<` not followed by `=` selects its one-character mode. Two characters are cut exactly when the text opens with `>`, `<` or `==`. Otherwise nothing is cut and the mode stays exact. |
| VersionGate.Admits | EditorHelper/Main.cs:64-80 | The code's switch of rejections (`!=`, `<`, `>`, `<=`, `>=` return false) admits exactly what the comparison each mode names holds. |
| VersionGate.GateAfterToken | EditorHelper/Main.cs:38-80 | Once the token is split off, activation is the mode's comparison with the parsed remainder, or with 76 when the remainder does not parse. |
| VersionGate.GateTwoCharToken | EditorHelper/Main.cs:40-45 | With `>=`, `<=` or `==`, activation is that comparison against the number after the two-character token. |
| VersionGate.GateOneCharToken | EditorHelper/Main.cs:46-51 | With `>` or `<` not followed by `=`, two characters are still cut. The comparison is against the number after the second character. |
| VersionGate.GateNoToken | EditorHelper/Main.cs:38-61 | A file with no token keeps the exact mode and compares with its whole text as a number, or with 76. |
| VersionGate.GateNotANumber | EditorHelper/Main.cs:57-60 | A file with no token and no digit ("garbage") activates exactly on build 76. |
| VersionGate.GateTokenWithoutNumber | EditorHelper/Main.cs:40-60 | A two-character token followed by no digit (`>=abc`) keeps its mode but compares with 76. |
| VersionGate.GateTokenOutOfRange | EditorHelper/Main.cs:40-60 | A two-character token followed by a number too large for 32 bits (`>=99999999999`) keeps its mode but compares with 76. |
| VersionGate.GatePaddedNumber | EditorHelper/Main.cs:57-60 | A bare number with white space around it (a trailing newline, say) is an exact-match rule for that number. |
| VersionGate.GateTwoCharRule | EditorHelper/Main.cs:40-80 | A rule written with a two-character token activates exactly when the host's number stands in that relation to the written target. |
| VersionGate.ParseRuleRoundTripTwoChar | EditorHelper/Main.cs:40-60 | As written, a rule rendered as token plus `ToString()` of its target reads back as itself for `==`, `>=` and `<=`. |
| VersionGate.BiggerTokenDropsDigit | EditorHelper/Main.cs:46-48 | As written, the rule "greater than t" for a two-digit t reads back as "greater than the last digit of t": `>70` admits every build above 0. |
| VersionGate.ParseRuleIntendedRoundTrip | EditorHelper/Main.cs:46-51 | With a one-character cut for `>` and `<`, every rule rendered as text reads back as itself, for all five tokens. |
| Decimal.ParseFormat | EditorHelper/Main.cs:57 | `int.TryParse` gives back any 32-bit number from its `ToString()` rendering, with any white space around it. |
| Decimal.TryParse | EditorHelper/Main.cs:57 | `int.TryParse` fails on any text without a digit. It also fails outside the 32-bit range (`Decimal.ParseOutOfRange`, `Decimal.ParseNegativeOutOfRange`). Every `ToString()` rendering reads back (`Decimal.ParseFormat`), and so do a leading `+` and leading zeros (`Decimal.ParsePlusAndZeros`). |
| Decimal.ParseOutOfRange | EditorHelper/Main.cs:57 | A number of 2^31 or more, with any white space around it, fails to parse. |
| Decimal.ParseNegativeOutOfRange | EditorHelper/Main.cs:57 | A negative number below −2^31, with any white space around it, fails to parse. |
| Decimal.ParsePlusAndZeros | EditorHelper/Main.cs:57 | A non-negative number with a leading `+`, leading zeros, or both (`+5`, `07`) reads back as its value, with any white space around it. |
| Relax.RelaxProperty | EditorHelper/Main.cs:228-244 | After RELAX a colour has its alpha flag set, an int has bounds `int.MinValue`/`int.MaxValue`, and a float or vector has bounds −∞/+∞. Every other field and every other kind is unchanged. |
| Relax.RelaxNamespace | EditorHelper/Main.cs:226-245 | RELAX keeps every group and property name in order. Every property ends relaxed and differs from its original only in its bounds. |
| Relax.RelaxSchema | EditorHelper/Main.cs:225-266 | RELAX relaxes the level events and the settings and keeps every group and property name of both, in order. What happens to each property is stated by `Relax.RelaxNamespace`. |
| Relax.RelaxIdempotent | EditorHelper/Main.cs:225-266 | RELAX applied twice is RELAX applied once. |
| Restore.RestoreProperty | EditorHelper/Main.cs:282-298 | A restored property carries the reference's bounds for its own kind. Nothing else changes, and kinds without bounds are untouched. |
| Restore.RestoreGroup | EditorHelper/Main.cs:279-299 | The pass over one group keeps its property names in order. What it restores and what it throws are stated by `Restore.RestoreGroupSpec`. |
| Restore.RestoreGroupSpec | EditorHelper/Main.cs:279-299 | The pass over a group restores exactly the properties before the first one the reference lacks. It leaves the rest unchanged and throws naming that property; if there is none, it restores all and does not throw. |
| Restore.RestoreNamespace | EditorHelper/Main.cs:276-300 | The pass over one namespace keeps every group and property name in order. What it restores and what it throws are stated by `Restore.RestoreNamespaceSpec`. |
| Restore.RestoreNamespaceSpec | EditorHelper/Main.cs:276-300 | Groups before the first failing lookup are fully restored and the failing group is restored up to its failing property. Later groups are untouched, and the pass throws exactly when some lookup fails. |
| Restore.NamespaceOutcome | EditorHelper/Main.cs:302-326 | A namespace pass throws exactly when the reference lacks one of its groups or properties. Otherwise it restores every property. |
| Restore.RestoreSchema | EditorHelper/Main.cs:268-326 | RESTORE keeps all names and throws exactly when either namespace is not covered by the reference. Without a throw, every property of both namespaces is restored. A throw among the level events leaves the settings untouched. A throw among the settings comes after every level event was restored. |
| Restore.RestoreIdempotent | EditorHelper/Main.cs:276-326 | A second RESTORE from the same reference changes nothing more and throws the same exception. |
| Restore.RestoreAgreeing | EditorHelper/Main.cs:276-326 | RESTORE leaves a schema whose bounds already match the reference exactly as it was, and does not throw. |
| Apply.ApplyConfig | EditorHelper/Main.cs:216-328 | A null settings table returns at once. Remove-limits without a forced removal never throws: every property keeps its kind and every field other than its bounds, and its bounds become extreme. Otherwise, an unreadable reference leaves everything unchanged, and a readable one restores everything unless a lookup fails, which happens exactly when the reference does not cover the live schema. |
| Apply.RestoreAfterRelax | EditorHelper/Main.cs:225-326 | RESTORE after RELAX throws exactly where RESTORE alone does. Without a throw, it gives the same schema. |
| Apply.RelaxThenRestore | EditorHelper/Main.cs:225-326 | A schema with the reference's bounds comes back unchanged from RELAX followed by RESTORE. |
| Apply.ApplyConfigStable | EditorHelper/Main.cs:216-328 | Applying the same configuration twice gives what applying it once gives, exception included. |
| Apply.DisableAfterRemoveLimits | EditorHelper/Main.cs:216-328 | A forced RESTORE (`ApplyConfig(true)`, which turning the mod off runs after `StopTweaks`) after RELAX throws what the forced RESTORE alone would. Without a throw, it gives the same schema. |
| Apply.TurnOff | EditorHelper/Main.cs:110-123 | Turning the mod off runs `StopTweaks` and then the forced RESTORE. A null settings table or a missing `MiscSettings` group throws from `StopTweaks` (lines 152-158) before anything is restored. Otherwise it does not throw there, level-event and settings group names are kept, and neither synthetic name is left in `MiscSettings`, even when RESTORE throws. |
| Apply.TurnOffAfterRemoveLimits | EditorHelper/Main.cs:110-123 | Turning the mod off after limits were removed throws what turning it off directly throws, from `StopTweaks` or from RESTORE. With a readable reference and no throw, it gives the same schema. |
| Apply.SpeedScenario | EditorHelper/Main.cs:253-256 | An int property bounded to [0, 100] is widened to the 32-bit range by RELAX and brought back to [0, 100] by RESTORE (the settings Int cases, RESTORE at lines 312-315). |
| Apply.PartialRestoreScenario | EditorHelper/Main.cs:276-280 | With a reference that lacks event group `B`, RESTORE after RELAX leaves group `A` restored and group `B` still relaxed, and throws for `B`. |
| Toggle.AddFeature | EditorHelper/Main.cs:131-145 | Enabling makes both synthetic names read the synthetic definitions and leaves every other property and group unchanged. A null table is caught and changes nothing. A missing `MiscSettings` throws. |
| Toggle.RemoveFeature | EditorHelper/Main.cs:146-157 | Disabling, and `StopTweaks`, make both synthetic names absent and leave every other property and group unchanged. A null table or a missing `MiscSettings` throws. |
| Toggle.CheckMoreEditorSettings | EditorHelper/Main.cs:131-150 | Throws exactly when `MiscSettings` is absent, or when the table is null and the feature is off. Otherwise both synthetic names are present afterwards exactly when the feature is on, and the group names are kept. |
| Toggle.RemoveAdded | EditorHelper/Main.cs:134-148 | Removing the two names from a group they were added to gives back the group exactly, order included, when it did not have them before. |
| Toggle.EnableThenDisable | EditorHelper/Main.cs:131-150 | Enabling then disabling the feature gives back the settings when `MiscSettings` had neither synthetic property before. |
| Toggle.EnableThenDisableLoses | EditorHelper/Main.cs:131-150 | When `MiscSettings` already had one of the two names, enabling then disabling does not give back the settings: that property is lost. |
| Toggle.EnableTwice | EditorHelper/Main.cs:131-145 | Enabling a second time changes nothing. |
| Toggle.DisableTwice | EditorHelper/Main.cs:146-157 | Disabling a second time changes nothing. |
| Dict.PutGet | EditorHelper/Main.cs:134-144 | After the indexer write `d[k] = v`, `k` reads `v` and every other key reads what it read before. |
| Dict.RemoveGet | EditorHelper/Main.cs:147-148 | After `Remove(k)`, `k` is absent and every other key reads what it read before. |

## Left out

- Logging, Harmony patching, UI drawing, the translation strings and the highlight logic are not modelled. They do not affect the schema.
- Loading and saving the mod's settings, and the `FirstLoaded` flag, are left out. The flag is written but nothing in the core reads it.
- File I/O for the override file is a parameter: the file's text, or `None` when it does not exist. File decoding (a byte-order mark, say) is not modelled.
- The host's release number is a parameter. It is `None` when the reflected field is not an `int`.
- `Load` throwing `NullReferenceException` when the release-number field does not exist at all is not modelled. The reflection lookup is outside the model, and `Gate(None, _)` covers only a field that is present but not an `int`.
- Decoding the reference dataset (`Json.Deserialize`, `Misc.Decode`) is not modelled. The reference is given already decoded, or as `None` when deserialisation does not give a dictionary. A reference without a `levelEvents` or `settings` key throws at the dictionary indexer (`EditorHelper/Main.cs:273-274`) before anything is mutated. A value there that is not a sequence reaches `Misc.Decode` as null. Neither case is modelled.
- The host's `PropertyInfo` constructor is not part of this model. The synthetic properties carry only their kind and default, with placeholder bounds that nothing reads for their kinds.
- `GCS.levelEventsInfo` is assumed non-null whenever `GCS.settingsInfo` is. The code checks only the latter (`EditorHelper/Main.cs:217`), so a null level-events table would throw at line 226 (RELAX) or line 276 (RESTORE). A single `Option<Schema>` cannot express one table null and the other not.
- Float values are abstract (finite real, ±∞, NaN). No float arithmetic is performed, so rounding is not modelled.
- The model assumes a culture in which the prefix test compares characters one by one and the sign symbols are `+` and `-`. `string.StartsWith(string)` actually compares with the current culture, and `int.TryParse` takes its sign symbols from the current culture's number format.
- Ignorable and combining characters that can change a culture-sensitive prefix match are not modelled. Neither are culture-specific sign symbols, or the trailing NUL characters that `TryParse` also accepts.
- The dictionary reuses the slot of a removed entry for the next insertion. The model appends instead, so enumeration order after a Remove-then-add cycle may differ from the host's.

## Findings

| source | as written | input that shows it | evidently intended | confidence | as-written member | corrected member |
|---|---|---|---|---|---|---|
| EditorHelper/Main.cs:46-51 | `>` and `<` tokens cut two characters (`Substring(2)`), like the two-character tokens | override file `>70`: the number read is `0`, so every build above 0 activates. A file that is only `>` makes loading throw | cut one character for `>` and `<`, so that `>70` means "greater than 70" | high, from reading the code; not executed | VersionGate.BiggerTokenDropsDigit | VersionGate.ParseRuleIntendedRoundTrip |

=== FILE: apply.dfy ===
/**
 Applying the configuration: choosing between RELAX and RESTORE, and how the
 two passes interact.
 */
module Apply {
  import opened Wrappers
  import opened Dict
  import opened Schema
  import opened Relax
  import opened Restore
  import opened Toggle

  /**
   Whether `after` is `before` with every property's limits made extreme: same
   groups and property counts, and each property relaxed and otherwise unchanged.
   */
  ghost predicate RelaxedFrom(before: Namespace, after: Namespace) {
    && |after| == |before|
    && (forall i :: 0 <= i < |before| ==> |after[i].1.props| == |before[i].1.props|)
    && (forall i, j :: 0 <= i < |before| && 0 <= j < |before[i].1.props| ==>
          IsRelaxed(after[i].1.props[j].1) && SameBesidesLimits(before[i].1.props[j].1, after[i].1.props[j].1))
  }

  /**
   Applying the configuration to the host's schema. `live` is `None` when the
   host's settings table is null; `reference` is `None` when the bundled
   dataset does not deserialise to a dictionary. RELAX runs when limits are
   to be removed and no removal is forced; RESTORE runs otherwise. The second
   component is the exception a failed RESTORE lookup throws.
   */
  function ApplyConfig(live: Option<Schema>, removeLimits: bool, forceRemove: bool, reference: Option<Schema>)
    : (r: (Option<Schema>, Option<Missing>))
    ensures live.None? ==> r == (None, None)
    ensures live.Some? ==>
      && r.0.Some?
      && Shape(r.0.value.events) == Shape(live.value.events)
      && Shape(r.0.value.settings) == Shape(live.value.settings)
    ensures live.Some? && removeLimits && !forceRemove ==>
      && r.1 == None
      && RelaxedFrom(live.value.events, r.0.value.events)
      && RelaxedFrom(live.value.settings, r.0.value.settings)
    ensures !(removeLimits && !forceRemove) && reference.None? ==> r == (live, None)
    ensures live.Some? && !(removeLimits && !forceRemove) && reference.Some? ==>
      && (r.1.None? <==> Covered(live.value.events, reference.value.events) && Covered(live.value.settings, reference.value.settings))
      && (r.1.None? ==>
            && NamespaceRestored(live.value.events, reference.value.events, r.0.value.events)
            && NamespaceRestored(live.value.settings, reference.value.settings, r.0.value.settings))
  {
    match live
    case None => (None, None)
    case Some(s) =>
      if removeLimits && !forceRemove then
        (Some(RelaxSchema(s)), None)
      else
        match reference
        case None => (live, None)
        case Some(orig) =>
          var restored := RestoreSchema(s, orig);
          (Some(restored.0), restored.1)
  }

  /** Restoring a relaxed property gives what restoring the original gives. */
  lemma RestoreRelaxedProperty(p: Property, o: Property)
    ensures RestoreProperty(RelaxProperty(p), o) == RestoreProperty(p, o)
  {
    WriteTwice(p, Extreme(p.kind), LimitsFor(p.kind, o));
  }

  /** Over one group, RESTORE after RELAX throws where RESTORE alone does, and without a throw gives the same group. */
  lemma {:induction false} RestoreRelaxedGroup(live: Dict<Property>, orig: Dict<Property>)
    ensures var a := RestoreGroup(MapValues(live, RelaxProperty), orig);
      var b := RestoreGroup(live, orig);
      a.1 == b.1 && (b.1.None? ==> a.0 == b.0)
  {
    if |live| > 0 {
      var relaxed := MapValues(live, RelaxProperty);
      assert relaxed[0] == (live[0].0, RelaxProperty(live[0].1));
      assert relaxed[1..] == MapValues(live[1..], RelaxProperty);
      var o := Get(orig, live[0].0);
      if o.Some? {
        RestoreRelaxedProperty(live[0].1, o.value);
        RestoreRelaxedGroup(live[1..], orig);
      }
    }
  }

  /** Over one namespace, RESTORE after RELAX throws where RESTORE alone does, and without a throw gives the same namespace. */
  lemma {:induction false} RestoreRelaxedNamespace(live: Namespace, orig: Namespace, space: Space)
    ensures var a := RestoreNamespace(RelaxNamespace(live), orig, space);
      var b := RestoreNamespace(live, orig, space);
      a.1 == b.1 && (b.1.None? ==> a.0 == b.0)
  {
    if |live| > 0 {
      var relaxed := RelaxNamespace(live);
      assert relaxed[0] == (live[0].0, RelaxGroup(live[0].1));
      assert relaxed[1..] == RelaxNamespace(live[1..]);
      var og := Get(orig, live[0].0);
      if og.Some? {
        RestoreRelaxedGroup(live[0].1.props, og.value.props);
        RestoreRelaxedNamespace(live[1..], orig, space);
      }
    }
  }

  /**
   RESTORE does not depend on the limits it overwrites: after RELAX it throws
   exactly where it would have, and when it does not throw the result is that
   of RESTORE alone.
   */
  lemma RestoreAfterRelax(live: Schema, orig: Schema)
    ensures RestoreSchema(RelaxSchema(live), orig).1 == RestoreSchema(live, orig).1
    ensures RestoreSchema(live, orig).1.None? ==> RestoreSchema(RelaxSchema(live), orig) == RestoreSchema(live, orig)
  {
    RestoreRelaxedNamespace(live.events, orig.events, LevelEvents);
    RestoreRelaxedNamespace(live.settings, orig.settings, Settings);
  }

  /** A schema whose limits match the reference comes back unchanged from RELAX followed by RESTORE. */
  lemma RelaxThenRestore(live: Schema, orig: Schema)
    requires Agrees(live.events, orig.events) && Agrees(live.settings, orig.settings)
    ensures RestoreSchema(RelaxSchema(live), orig) == (live, None)
  {
    RestoreAgreeing(live, orig);
    RestoreAfterRelax(live, orig);
  }

  /** Applying the same configuration a second time changes nothing further and throws what the first throws. */
  lemma ApplyConfigStable(live: Option<Schema>, removeLimits: bool, forceRemove: bool, reference: Option<Schema>)
    ensures var once := ApplyConfig(live, removeLimits, forceRemove, reference);
      ApplyConfig(once.0, removeLimits, forceRemove, reference) == once
  {
    if live.Some? {
      if removeLimits && !forceRemove {
        RelaxIdempotent(live.value);
      } else if reference.Some? {
        RestoreIdempotent(live.value, reference.value);
      }
    }
  }

  /**
   A forced RESTORE (`ApplyConfig(true)`, which turning the mod off runs after
   `StopTweaks`) after RELAX throws what the forced RESTORE alone would, and
   without a throw gives the same schema.
   */
  lemma DisableAfterRemoveLimits(live: Option<Schema>, reference: Option<Schema>)
    ensures var relaxed := ApplyConfig(live, true, false, reference);
      var direct := ApplyConfig(live, true, true, reference);
      && ApplyConfig(relaxed.0, true, true, reference).1 == direct.1
      && (direct.1.None? && reference.Some? ==> ApplyConfig(relaxed.0, true, true, reference) == direct)
  {
    if live.Some? && reference.Some? {
      RestoreAfterRelax(live.value, reference.value);
    }
  }

  /** The host's settings table for a live schema: null when the schema is absent. */
  function SettingsOf(live: Option<Schema>): Option<Namespace> {
    if live.None? then None else Some(live.value.settings)
  }

  /**
   Turning the mod off (`OnToggle(false)`): `StopTweaks` removes the two
   synthetic settings, then a forced `ApplyConfig` restores the reference's
   bounds. `StopTweaks` runs outside any try, so a null settings table or a
   missing `MiscSettings` group throws before anything is restored. Afterwards
   neither synthetic name is in `MiscSettings`, even when RESTORE throws.
   */
  function TurnOff(live: Option<Schema>, reference: Option<Schema>)
    : (r: Result<(Option<Schema>, Option<Missing>), ToggleError>)
    ensures live.None? ==> r == Failure(NullSettings)
    ensures live.Some? && MiscSettings !in Keys(live.value.settings) ==> r == Failure(NoMiscSettings)
    ensures live.Some? && MiscSettings in Keys(live.value.settings) ==>
      && r.Success? && r.value.0.Some?
      && Shape(r.value.0.value.events) == Shape(live.value.events)
      && Keys(r.value.0.value.settings) == Keys(live.value.settings)
      && var misc := Get(r.value.0.value.settings, MiscSettings);
         && misc.Some?
         && LegacyFlashName !in Keys(misc.value.props)
         && ConvertFloorMeshName !in Keys(misc.value.props)
  {
    match RemoveFeature(SettingsOf(live))
    case Failure(e) => Failure(e)
    case Success(settings) =>
      var stopped := live.value.(settings := settings.value);
      var r := ApplyConfig(Some(stopped), true, true, reference);
      ShapeGet(r.0.value.settings, stopped.settings, MiscSettings);
      ShapeKeys(r.0.value.settings, stopped.settings);
      Success(r)
  }

  /** `StopTweaks` on relaxed settings gives the relaxed result of `StopTweaks`. */
  lemma StopTweaksRelaxed(ns: Namespace)
    requires MiscSettings in Keys(ns)
    ensures RemoveFeature(Some(RelaxNamespace(ns))) == Success(Some(RelaxNamespace(RemoveFeature(Some(ns)).value.value)))
  {
    var g := Get(ns, MiscSettings).value;
    GetMapValues(ns, RelaxGroup, MiscSettings);
    RemoveMapValues(g.props, RelaxProperty, LegacyFlashName);
    RemoveMapValues(Remove(g.props, LegacyFlashName), RelaxProperty, ConvertFloorMeshName);
    assert RemoveSynthetic(RelaxGroup(g).props) == RelaxGroup(Group(RemoveSynthetic(g.props))).props;
    PutMapValues(ns, RelaxGroup, MiscSettings, Group(RemoveSynthetic(g.props)));
  }

  /**
   Turning the mod off after limits were removed throws what turning it off
   directly throws (from `StopTweaks` or from RESTORE), and with a readable
   reference and no throw gives the same schema.
   */
  lemma TurnOffAfterRemoveLimits(live: Option<Schema>, reference: Option<Schema>)
    ensures var a := TurnOff(ApplyConfig(live, true, false, reference).0, reference);
      var b := TurnOff(live, reference);
      && (b.Failure? ==> a == b)
      && (b.Success? ==> a.Success? && a.value.1 == b.value.1)
      && (b.Success? && b.value.1.None? && reference.Some? ==> a == b)
  {
    if live.Some? && MiscSettings in Keys(live.value.settings) {
      var s := live.value;
      StopTweaksRelaxed(s.settings);
      var stopped := s.(settings := RemoveFeature(Some(s.settings)).value.value);
      assert RelaxSchema(s).(settings := RelaxNamespace(stopped.settings)) == RelaxSchema(stopped);
      if reference.Some? {
        RestoreAfterRelax(stopped, reference.value);
      }
    }
  }

  /** An Int property with the given bounds; the other fields are fixed filler. */
  function IntProperty(lo: int32, hi: int32): (p: Property)
    ensures p.kind == Int && LimitsOf(p) == IntLimits(lo, hi)
  {
    Property(Int, false, lo, hi, NaN, NaN, Vec2(NaN, NaN), Vec2(NaN, NaN), None)
  }

  /** An Int property `speed` bounded to [0, 100] is widened to the 32-bit range by RELAX and brought back by RESTORE. */
  lemma SpeedScenario()
    ensures var live := Schema([], [("Speed", Group([("speed", IntProperty(0, 100))]))]);
      && RelaxSchema(live).settings[0].1.props[0].1 == IntProperty(Int32Min, Int32Max)
      && RestoreSchema(RelaxSchema(live), live) == (live, None)
  {
    var live := Schema([], [("Speed", Group([("speed", IntProperty(0, 100))]))]);
    assert Agrees(live.settings, live.settings) by {
      assert Get(live.settings, "Speed") == Some(live.settings[0].1);
      assert Get(live.settings[0].1.props, "speed") == Some(IntProperty(0, 100));
    }
    RelaxThenRestore(live, live);
  }

  /** Two event groups `A` and `B` with one Int property each. */
  const TwoGroups := Schema([("A", Group([("x", IntProperty(0, 5))])), ("B", Group([("y", IntProperty(1, 2))]))], [])

  /** A reference that has group `A` but not group `B`. */
  const OnlyGroupA := Schema([("A", Group([("x", IntProperty(0, 5))]))], [])

  /** Group `A` after RELAX: its Int property spans the 32-bit range. */
  const WideA := Group([("x", IntProperty(Int32Min, Int32Max))])
  /** Group `B` after RELAX: its Int property spans the 32-bit range. */
  const WideB := Group([("y", IntProperty(Int32Min, Int32Max))])

  /** RELAX widens the Int property of both event groups. */
  lemma RelaxTwoGroups()
    ensures RelaxSchema(TwoGroups) == Schema([("A", WideA), ("B", WideB)], [])
  {
    var relaxed := RelaxSchema(TwoGroups);
    assert RelaxProperty(IntProperty(0, 5)) == IntProperty(Int32Min, Int32Max);
    assert RelaxProperty(IntProperty(1, 2)) == IntProperty(Int32Min, Int32Max);
    assert MapValues(TwoGroups.events[0].1.props, RelaxProperty) == WideA.props;
    assert MapValues(TwoGroups.events[1].1.props, RelaxProperty) == WideB.props;
    assert relaxed.events[0] == ("A", WideA) && relaxed.events[1] == ("B", WideB);
  }

  /** Restoring the relaxed group `A` from the reference brings back [0, 5]. */
  lemma RestoreWideGroupA()
    ensures RestoreGroup(WideA.props, OnlyGroupA.events[0].1.props) == ([("x", IntProperty(0, 5))], None)
  {
    var o := OnlyGroupA.events[0].1.props;
    assert Get(o, "x") == Some(IntProperty(0, 5));
    assert RestoreProperty(IntProperty(Int32Min, Int32Max), IntProperty(0, 5)) == IntProperty(0, 5);
    assert WideA.props[1..] == [];
    assert RestoreGroup([], o) == ([], None);
    assert [("x", IntProperty(0, 5))] + [] == [("x", IntProperty(0, 5))];
  }

  /** RESTORE restores group `A`, then throws on `B`, which the reference lacks, leaving `B` relaxed. */
  lemma RestoreWideGroups()
    ensures RestoreSchema(Schema([("A", WideA), ("B", WideB)], []), OnlyGroupA)
         == (Schema([("A", Group([("x", IntProperty(0, 5))])), ("B", WideB)], []), Some(MissingGroup(LevelEvents, "B")))
  {
    var wide := [("A", WideA), ("B", WideB)];
    assert Get(OnlyGroupA.events, "A") == Some(OnlyGroupA.events[0].1);
    assert Get(OnlyGroupA.events, "B") == None;
    RestoreWideGroupA();
    assert RestoreNamespace([("B", WideB)], OnlyGroupA.events, LevelEvents) == ([("B", WideB)], Some(MissingGroup(LevelEvents, "B")));
    assert wide[1..] == [("B", WideB)];
    var restoredA := ("A", Group([("x", IntProperty(0, 5))]));
    assert RestoreNamespace(wide, OnlyGroupA.events, LevelEvents) == ([restoredA] + [("B", WideB)], Some(MissingGroup(LevelEvents, "B")));
    assert [restoredA] + [("B", WideB)] == [restoredA, ("B", WideB)];
  }

  /**
   A RESTORE that throws at the second event group leaves the first group
   restored and the second one still relaxed.
   */
  lemma PartialRestoreScenario()
    ensures RestoreSchema(RelaxSchema(TwoGroups), OnlyGroupA)
         == (Schema([("A", Group([("x", IntProperty(0, 5))])), ("B", WideB)], []), Some(MissingGroup(LevelEvents, "B")))
  {
    RelaxTwoGroups();
    RestoreWideGroups();
  }
}

=== FILE: decimal.dfy ===
/**
 C#'s `int.TryParse(string, out int)` with the default number style, assuming
 a culture whose sign symbols are `+` and `-`: optional leading and trailing
 white space, an optional leading sign, one or more ASCII digits, and a value
 that fits in 32 bits.
 Also the canonical decimal rendering of an `int`, the text `ToString()` gives.
 */
module Decimal {
  import opened Wrappers
  import opened Schema

  /** The white space the number parser skips: space and the controls tab through carriage return. */
  predicate IsWhite(c: char) {
    c == ' ' || '\t' <= c <= '\r'
  }

  predicate IsDigit(c: char) {
    '0' <= c <= '9'
  }

  predicate AllDigits(s: string) {
    forall i :: 0 <= i < |s| ==> IsDigit(s[i])
  }

  predicate AllWhite(s: string) {
    forall i :: 0 <= i < |s| ==> IsWhite(s[i])
  }

  /** `s` without its leading white space. */
  function TrimStart(s: string): (r: string)
    ensures |r| <= |s| && r == s[|s| - |r|..]
    ensures forall i :: 0 <= i < |s| - |r| ==> IsWhite(s[i])
    ensures |r| > 0 ==> !IsWhite(r[0])
  {
    if |s| > 0 && IsWhite(s[0]) then
      var r := TrimStart(s[1..]);
      assert forall i :: 1 <= i < |s| ==> s[i] == s[1..][i - 1];
      r
    else s
  }

  /** `s` without its trailing white space. */
  function TrimEnd(s: string): (r: string)
    ensures |r| <= |s| && r == s[..|r|]
    ensures forall i :: |r| <= i < |s| ==> IsWhite(s[i])
    ensures |r| > 0 ==> !IsWhite(r[|r| - 1])
  {
    if |s| > 0 && IsWhite(s[|s| - 1]) then
      var r := TrimEnd(s[..|s| - 1]);
      assert forall i :: 0 <= i < |s| - 1 ==> s[i] == s[..|s| - 1][i];
      r
    else s
  }

  /** The value of a string of decimal digits, most significant first. */
  function DigitsValue(s: string): nat
    requires AllDigits(s)
  {
    if |s| == 0 then 0
    else DigitsValue(s[..|s| - 1]) * 10 + (s[|s| - 1] as int - '0' as int)
  }

  /** The text after an optional sign, and whether the sign was `-`. */
  function SplitSign(t: string): (bool, string) {
    if |t| > 0 && t[0] == '-' then (true, t[1..])
    else if |t| > 0 && t[0] == '+' then (false, t[1..])
    else (false, t)
  }

  /** The number a text without surrounding white space denotes, if it fits in 32 bits. */
  function ParseTrimmed(t: string): Option<int32> {
    var (negative, body) := SplitSign(t);
    if |body| == 0 || !AllDigits(body) then None
    else
      var magnitude: int := DigitsValue(body);
      var v := if negative then -magnitude else magnitude;
      if -0x8000_0000 <= v < 0x8000_0000 then Some(v as int32) else None
  }

  /** `int.TryParse`: `None` where it returns false. */
  function TryParse(s: string): (r: Option<int32>)
    ensures NoDigit(s) ==> r == None
  {
    var t0 := TrimStart(s);
    var t := TrimEnd(t0);
    if NoDigit(s) then
      NoDigitSlice(s, |s| - |t0|, |s|);
      NoDigitSlice(t0, 0, |t|);
      NoDigitParseTrimmed(t);
      ParseTrimmed(t)
    else ParseTrimmed(t)
  }

  /** The digits of `n` without leading zeros. */
  function Digits(n: nat): (s: string)
    ensures |s| > 0 && AllDigits(s)
    ensures DigitsValue(s) == n
  {
    var d := ['0' + (n % 10) as char];
    if n < 10 then d
    else
      var s := Digits(n / 10) + d;
      assert s[..|s| - 1] == Digits(n / 10);
      s
  }

  /** `n.ToString()`: a `-` for negative values, then the digits of the magnitude. */
  function Format(n: int32): string {
    if n < 0 then "-" + Digits(-(n as int)) else Digits(n as int)
  }

  /** Parsing what `ToString()` prints, with any white space around it, gives back the number. */
  lemma ParseFormat(n: int32, before: string, after: string)
    requires AllWhite(before) && AllWhite(after)
    ensures TryParse(before + Format(n) + after) == Some(n)
  {
    var f := Format(n);
    assert f[0] == '-' || IsDigit(f[0]);
    assert IsDigit(f[|f| - 1]);
    TrimPadded(before, f, after);
    ParseTrimmedFormat(n);
  }

  /** A rendered number with nothing around it reads back as itself. */
  lemma ParseFormatBare(n: int32)
    ensures TryParse(Format(n)) == Some(n)
  {
    var f := Format(n);
    assert f[0] == '-' || IsDigit(f[0]);
    assert IsDigit(f[|f| - 1]);
    assert TrimStart(f) == f;
    assert TrimEnd(f) == f;
    ParseTrimmedFormat(n);
  }

  /** White space around a text that starts and ends with a non-white character is exactly what trimming removes. */
  lemma TrimPadded(before: string, body: string, after: string)
    requires AllWhite(before) && AllWhite(after)
    requires |body| > 0 && !IsWhite(body[0]) && !IsWhite(body[|body| - 1])
    ensures TrimEnd(TrimStart(before + body + after)) == body
  {
    TrimStartPadded(before, body + after);
    assert before + body + after == before + (body + after);
    TrimEndPadded(body, after);
  }

  /** A number of 2^31 or more, however padded, does not fit and fails to parse. */
  lemma ParseOutOfRange(m: nat, before: string, after: string)
    requires m >= 0x8000_0000
    requires AllWhite(before) && AllWhite(after)
    ensures TryParse(before + Digits(m) + after) == None
  {
    var d := Digits(m);
    assert IsDigit(d[0]) && IsDigit(d[|d| - 1]);
    TrimPadded(before, d, after);
    assert SplitSign(d) == (false, d);
  }

  /** A negative number below -2^31, however padded, does not fit and fails to parse. */
  lemma ParseNegativeOutOfRange(m: nat, before: string, after: string)
    requires m > 0x8000_0000
    requires AllWhite(before) && AllWhite(after)
    ensures TryParse(before + "-" + Digits(m) + after) == None
  {
    var d := Digits(m);
    var body := "-" + d;
    assert IsDigit(body[|body| - 1]);
    assert before + "-" + d + after == before + body + after;
    TrimPadded(before, body, after);
    assert SplitSign(body) == (true, d);
  }

  /** `k` zero digits. */
  function Zeros(k: nat): (z: string)
    ensures |z| == k && AllDigits(z)
  {
    seq(k, _ => '0')
  }

  /** Leading zeros do not change the value of a digit string. */
  lemma {:induction false} ZerosValue(k: nat, d: string)
    requires AllDigits(d)
    ensures DigitsValue(Zeros(k) + d) == DigitsValue(d)
    decreases |d|, k
  {
    var s := Zeros(k) + d;
    if |d| > 0 {
      assert s[..|s| - 1] == Zeros(k) + d[..|d| - 1];
      ZerosValue(k, d[..|d| - 1]);
    } else if k > 0 {
      assert s[..|s| - 1] == Zeros(k - 1) + d;
      ZerosValue(k - 1, d);
    } else {
      assert s == [];
    }
  }

  /**
   Besides `ToString()`'s rendering, a non-negative number also reads back
   with a leading `+` and with leading zeros: `+5` and `07` parse.
   */
  lemma ParsePlusAndZeros(n: int32, sign: string, k: nat, before: string, after: string)
    requires n >= 0 && (sign == "" || sign == "+")
    requires AllWhite(before) && AllWhite(after)
    ensures TryParse(before + sign + Zeros(k) + Format(n) + after) == Some(n)
  {
    var d := Format(n);
    var body := sign + Zeros(k) + d;
    assert IsDigit(d[0]) && IsDigit(d[|d| - 1]);
    assert body[0] == '+' || IsDigit(body[0]);
    assert body[|body| - 1] == d[|d| - 1];
    assert before + sign + Zeros(k) + d + after == before + body + after;
    TrimPadded(before, body, after);
    ParseTrimmedPlusZeros(n, sign, k);
  }

  /** A non-negative number after an optional `+` and leading zeros, without white space. */
  lemma ParseTrimmedPlusZeros(n: int32, sign: string, k: nat)
    requires n >= 0 && (sign == "" || sign == "+")
    ensures ParseTrimmed(sign + Zeros(k) + Format(n)) == Some(n)
  {
    var d := Digits(n as int);
    var digits := Zeros(k) + d;
    assert sign + Zeros(k) + d == sign + digits;
    SplitPlus(sign, digits);
    ZerosValue(k, d);
  }

  /** An optional `+` before a digit is split off as a non-negative sign. */
  lemma SplitPlus(sign: string, digits: string)
    requires sign == "" || sign == "+"
    requires |digits| > 0 && IsDigit(digits[0])
    ensures SplitSign(sign + digits) == (false, digits)
  {
    if sign == "+" {
      assert (sign + digits)[1..] == digits;
    } else {
      assert sign + digits == digits;
    }
  }

  /** A rendered number reads back as itself. */
  lemma ParseTrimmedFormat(n: int32)
    ensures ParseTrimmed(Format(n)) == Some(n)
  {
    var f := Format(n);
    if n < 0 {
      assert SplitSign(f) == (true, Digits(-(n as int)));
    } else {
      assert SplitSign(f) == (false, Digits(n as int));
    }
  }

  /** Leading white space is stripped up to the first non-white character. */
  lemma {:induction false} TrimStartPadded(pad: string, s: string)
    requires AllWhite(pad)
    requires |s| > 0 && !IsWhite(s[0])
    ensures TrimStart(pad + s) == s
  {
    if |pad| > 0 {
      assert (pad + s)[1..] == pad[1..] + s;
      TrimStartPadded(pad[1..], s);
    } else {
      assert pad + s == s;
    }
  }

  /** Trailing white space is stripped back to the last non-white character. */
  lemma {:induction false} TrimEndPadded(s: string, pad: string)
    requires AllWhite(pad)
    requires |s| > 0 && !IsWhite(s[|s| - 1])
    ensures TrimEnd(s + pad) == s
  {
    if |pad| > 0 {
      assert (s + pad)[..|s + pad| - 1] == s + pad[..|pad| - 1];
      TrimEndPadded(s, pad[..|pad| - 1]);
    } else {
      assert s + pad == s;
    }
  }

  predicate NoDigit(s: string) {
    forall i :: 0 <= i < |s| ==> !IsDigit(s[i])
  }

  /** Every slice of a text without digits is without digits. */
  lemma NoDigitSlice(s: string, lo: nat, hi: nat)
    requires NoDigit(s) && lo <= hi <= |s|
    ensures NoDigit(s[lo..hi])
  {
    forall i | 0 <= i < hi - lo
      ensures !IsDigit(s[lo..hi][i])
    {
      assert s[lo..hi][i] == s[lo + i];
    }
  }

  /** A trimmed text without digits, signed or not, has no digits after its sign. */
  lemma NoDigitParseTrimmed(t: string)
    requires NoDigit(t)
    ensures ParseTrimmed(t) == None
  {
    var body := SplitSign(t).1;
    if |body| > 0 {
      assert body[0] == t[|t| - |body|];
      assert !AllDigits(body);
    }
  }
}

=== FILE: dict.dfy ===
/**
 A C# `Dictionary<string, V>` as an association list: the sequence order is the
 enumeration order. A lookup finds the first entry with its key, and `Put`
 overwrites that entry rather than adding a second one.
 */
module Dict {
  import opened Wrappers

  type Dict<V> = seq<(string, V)>

  /** The keys, in enumeration order. */
  function Keys<V>(d: Dict<V>): (ks: seq<string>)
    ensures |ks| == |d|
    ensures forall i :: 0 <= i < |d| ==> ks[i] == d[i].0
  {
    seq(|d|, i requires 0 <= i < |d| => d[i].0)
  }

  /** The indexer read `d[k]`; `None` where C# throws KeyNotFoundException. */
  function Get<V>(d: Dict<V>, k: string): (r: Option<V>)
    ensures r.None? <==> k !in Keys(d)
  {
    if |d| == 0 then None
    else if d[0].0 == k then Some(d[0].1)
    else
      assert Keys(d[1..]) == Keys(d)[1..];
      Get(d[1..], k)
  }

  /** Looking up in a dictionary with a known first entry. */
  lemma GetCons<V>(e: (string, V), d: Dict<V>, k: string)
    ensures Get([e] + d, k) == if e.0 == k then Some(e.1) else Get(d, k)
  {
    assert ([e] + d)[1..] == d;
  }

  /** The keys of a dictionary with a known first entry. */
  lemma KeysCons<V>(e: (string, V), d: Dict<V>)
    ensures Keys([e] + d) == [e.0] + Keys(d)
  {
  }

  /** The indexer write `d[k] = v`: overwrites the value in place, or adds the entry at the end. */
  function Put<V>(d: Dict<V>, k: string, v: V): (r: Dict<V>)
    ensures k in Keys(d) ==> Keys(r) == Keys(d)
    ensures k !in Keys(d) ==> Keys(r) == Keys(d) + [k]
  {
    if |d| == 0 then [(k, v)]
    else if d[0].0 == k then
      KeysCons((k, v), d[1..]);
      KeysCons(d[0], d[1..]);
      assert d == [d[0]] + d[1..];
      [(k, v)] + d[1..]
    else
      var rest := Put(d[1..], k, v);
      KeysCons(d[0], rest);
      KeysCons(d[0], d[1..]);
      assert d == [d[0]] + d[1..];
      [d[0]] + rest
  }

  /** After `d[k] = v`, key `k` reads `v` and every other key reads what it read before. */
  lemma {:induction false} PutGet<V>(d: Dict<V>, k: string, v: V, k': string)
    ensures Get(Put(d, k, v), k') == if k' == k then Some(v) else Get(d, k')
  {
    if |d| == 0 {
      GetCons((k, v), [], k');
    } else {
      assert d == [d[0]] + d[1..];
      GetCons(d[0], d[1..], k');
      if d[0].0 == k {
        GetCons((k, v), d[1..], k');
      } else {
        PutGet(d[1..], k, v, k');
        GetCons(d[0], Put(d[1..], k, v), k');
      }
    }
  }

  /** Writing a key the dictionary lacks adds the entry at the end. */
  lemma {:induction false} PutFresh<V>(d: Dict<V>, k: string, v: V)
    requires k !in Keys(d)
    ensures Put(d, k, v) == d + [(k, v)]
  {
    if |d| > 0 {
      assert Keys(d)[1..] == Keys(d[1..]);
      PutFresh(d[1..], k, v);
      assert d == [d[0]] + d[1..];
    }
  }

  /** A second write of the same key replaces the first. */
  lemma {:induction false} PutPut<V>(d: Dict<V>, k: string, v: V, v': V)
    ensures Put(Put(d, k, v), k, v') == Put(d, k, v')
  {
    if |d| > 0 && d[0].0 != k {
      PutPut(d[1..], k, v, v');
      var once := Put(d, k, v);
      assert once[0] == d[0] && once[1..] == Put(d[1..], k, v);
    }
  }

  /** Writing back the value a key already reads changes nothing. */
  lemma {:induction false} PutSame<V>(d: Dict<V>, k: string)
    requires k in Keys(d)
    ensures Put(d, k, Get(d, k).value) == d
  {
    if d[0].0 != k {
      assert Keys(d)[1..] == Keys(d[1..]);
      PutSame(d[1..], k);
      assert d == [d[0]] + d[1..];
    } else {
      assert d == [d[0]] + d[1..];
    }
  }

  /** `d.Remove(k)`: drops the entry with key `k`; a missing key is a no-op. */
  function Remove<V>(d: Dict<V>, k: string): (r: Dict<V>)
    ensures k !in Keys(d) ==> r == d
    ensures forall k' :: k' in Keys(r) <==> k' in Keys(d) && k' != k
  {
    if |d| == 0 then d
    else
      var rest := Remove(d[1..], k);
      KeysCons(d[0], d[1..]);
      assert d == [d[0]] + d[1..];
      if d[0].0 == k then rest
      else
        KeysCons(d[0], rest);
        [d[0]] + rest
  }

  /** After `d.Remove(k)`, key `k` reads nothing and every other key reads what it read before. */
  lemma {:induction false} RemoveGet<V>(d: Dict<V>, k: string, k': string)
    ensures Get(Remove(d, k), k') == if k' == k then None else Get(d, k')
  {
    if |d| > 0 {
      assert d == [d[0]] + d[1..];
      GetCons(d[0], d[1..], k');
      RemoveGet(d[1..], k, k');
      if d[0].0 != k {
        GetCons(d[0], Remove(d[1..], k), k');
      }
    }
  }

  /** Removing from a concatenation removes from both parts. */
  lemma {:induction false} RemoveAppend<V>(a: Dict<V>, b: Dict<V>, k: string)
    ensures Remove(a + b, k) == Remove(a, k) + Remove(b, k)
  {
    if |a| > 0 {
      var ab := a + b;
      assert ab[0] == a[0] && ab[1..] == a[1..] + b;
      RemoveAppend(a[1..], b, k);
      var rest := Remove(a[1..], k) + Remove(b, k);
      assert Remove(ab, k) == if a[0].0 == k then rest else [a[0]] + rest;
      assert Remove(a, k) == if a[0].0 == k then Remove(a[1..], k) else [a[0]] + Remove(a[1..], k);
    } else {
      assert a + b == b;
    }
  }

  /** Rewrites every value through `f`, keeping keys and order. */
  function MapValues<V>(d: Dict<V>, f: V -> V): (r: Dict<V>)
    ensures Keys(r) == Keys(d)
    ensures forall i :: 0 <= i < |d| ==> r[i].1 == f(d[i].1)
  {
    if |d| == 0 then []
    else [(d[0].0, f(d[0].1))] + MapValues(d[1..], f)
  }

  /** Mapping twice through a function that is idempotent on values is mapping once. */
  lemma {:induction false} MapValuesIdempotent<V>(d: Dict<V>, f: V -> V)
    requires forall v :: f(f(v)) == f(v)
    ensures MapValues(MapValues(d, f), f) == MapValues(d, f)
  {
    if |d| > 0 {
      MapValuesIdempotent(d[1..], f);
      var once := MapValues(d, f);
      assert once[1..] == MapValues(d[1..], f);
    }
  }

  /** Looking up after mapping finds the mapped value of the same entry. */
  lemma {:induction false} GetMapValues<V>(d: Dict<V>, f: V -> V, k: string)
    ensures Get(MapValues(d, f), k) == if Get(d, k).Some? then Some(f(Get(d, k).value)) else None
  {
    if |d| > 0 {
      GetMapValues(d[1..], f, k);
      assert MapValues(d, f)[1..] == MapValues(d[1..], f);
    }
  }

  /** Removing commutes with mapping the values. */
  lemma {:induction false} RemoveMapValues<V>(d: Dict<V>, f: V -> V, k: string)
    ensures Remove(MapValues(d, f), k) == MapValues(Remove(d, k), f)
  {
    if |d| > 0 {
      RemoveMapValues(d[1..], f, k);
      assert MapValues(d, f)[1..] == MapValues(d[1..], f);
      if d[0].0 != k {
        assert MapValues([d[0]] + Remove(d[1..], k), f)[1..] == MapValues(Remove(d[1..], k), f);
      }
    }
  }

  /** Writing a mapped value into a mapped dictionary is mapping after the write. */
  lemma {:induction false} PutMapValues<V>(d: Dict<V>, f: V -> V, k: string, v: V)
    ensures Put(MapValues(d, f), k, f(v)) == MapValues(Put(d, k, v), f)
  {
    if |d| > 0 {
      assert MapValues(d, f)[1..] == MapValues(d[1..], f);
      if d[0].0 == k {
        assert MapValues([(k, v)] + d[1..], f)[1..] == MapValues(d[1..], f);
      } else {
        PutMapValues(d[1..], f, k, v);
        assert MapValues([d[0]] + Put(d[1..], k, v), f)[1..] == MapValues(Put(d[1..], k, v), f);
      }
    }
  }
}

=== FILE: relax.dfy ===
/**
 RELAX: widen the limits of every Color, Int, Float and Vector2 property of
 both namespaces to the widest values their fields can hold.
 */
module Relax {
  import opened Dict
  import opened Schema

  /** The widest limits of each bounded kind: alpha allowed, the 32-bit integer range, the infinities. */
  function Extreme(k: Kind): (l: Limits)
    ensures Fits(k, l)
  {
    match k
    case Color => AlphaLimit(true)
    case Int => IntLimits(Int32Min, Int32Max)
    case Float => FloatLimits(NegativeInfinity, PositiveInfinity)
    case Vector2 => VectorLimits(NegativeInfinityVec, PositiveInfinityVec)
    case _ => NoLimits
  }

  /** Whether a property's limits are already the widest its kind allows. */
  predicate IsRelaxed(p: Property) {
    LimitsOf(p) == Extreme(p.kind)
  }

  /** One property's relaxation: its limits become extreme and nothing else changes. */
  function RelaxProperty(p: Property): (r: Property)
    ensures IsRelaxed(r)
    ensures SameBesidesLimits(p, r)
    ensures !p.kind.Bounded() ==> r == p
  {
    WithLimits(p, Extreme(p.kind))
  }

  /** Relaxes every property of one group, keeping the property names in order. */
  function RelaxGroup(g: Group): (r: Group)
    ensures Keys(r.props) == Keys(g.props)
  {
    Group(MapValues(g.props, RelaxProperty))
  }

  /** Relaxes every property of every group of a namespace. */
  function RelaxNamespace(ns: Namespace): (r: Namespace)
    ensures Shape(r) == Shape(ns)
    ensures forall i :: 0 <= i < |ns| ==> |r[i].1.props| == |ns[i].1.props|
    ensures forall i, j :: 0 <= i < |ns| && 0 <= j < |ns[i].1.props| ==>
      IsRelaxed(r[i].1.props[j].1) && SameBesidesLimits(ns[i].1.props[j].1, r[i].1.props[j].1)
  {
    MapValues(ns, RelaxGroup)
  }

  /** The RELAX branch of applying the configuration: both namespaces are relaxed. */
  function RelaxSchema(s: Schema): (r: Schema)
    ensures Shape(r.events) == Shape(s.events) && Shape(r.settings) == Shape(s.settings)
  {
    Schema(RelaxNamespace(s.events), RelaxNamespace(s.settings))
  }

  /** Relaxing a relaxed property changes nothing. */
  lemma RelaxPropertyIdempotent(p: Property)
    ensures RelaxProperty(RelaxProperty(p)) == RelaxProperty(p)
  {
    WriteTwice(p, Extreme(p.kind), Extreme(p.kind));
  }

  /** RELAX applied twice leaves the schema as RELAX applied once. */
  lemma RelaxIdempotent(s: Schema)
    ensures RelaxSchema(RelaxSchema(s)) == RelaxSchema(s)
  {
    forall p | true
      ensures RelaxProperty(RelaxProperty(p)) == RelaxProperty(p)
    {
      RelaxPropertyIdempotent(p);
    }
    forall g | true
      ensures RelaxGroup(RelaxGroup(g)) == RelaxGroup(g)
    {
      MapValuesIdempotent(g.props, RelaxProperty);
    }
    MapValuesIdempotent(s.events, RelaxGroup);
    MapValuesIdempotent(s.settings, RelaxGroup);
  }
}

=== FILE: restore.dfy ===
/**
 RESTORE: copy the limits of every Color, Int, Float and Vector2 property back
 from the reference schema, looking groups and properties up by name. A failed
 lookup throws in the middle of the pass, so the entries visited before it
 keep their restored limits and the rest keep what they had.
 */
module Restore {
  import opened Wrappers
  import opened Dict
  import opened Schema

  /** Which of the two namespaces a lookup failed in. */
  datatype Space = LevelEvents | Settings

  /** The KeyNotFoundException a pass throws: the group, or the property within a group, the reference lacks. */
  datatype Missing =
    | MissingGroup(space: Space, group: string)
    | MissingProperty(space: Space, group: string, property: string)

  /** One property's restoration: the limits its kind reads are copied from `orig`; nothing else changes. */
  function RestoreProperty(p: Property, orig: Property): (r: Property)
    ensures LimitsOf(r) == LimitsFor(p.kind, orig)
    ensures SameBesidesLimits(p, r)
    ensures !p.kind.Bounded() ==> r == p
  {
    WithLimits(p, LimitsFor(p.kind, orig))
  }

  /** The position of the first entry of `live` whose key `orig` lacks, or `|live|` when there is none. */
  function FirstMissing<V, W>(live: Dict<V>, orig: Dict<W>): (n: nat)
    ensures n <= |live|
    ensures forall i :: 0 <= i < n ==> Get(orig, live[i].0).Some?
    ensures n < |live| ==> Get(orig, live[n].0).None?
  {
    if |live| == 0 || Get(orig, live[0].0).None? then 0
    else 1 + FirstMissing(live[1..], orig)
  }

  /**
   `out` is `live` with the first `n` properties restored from `orig` and the
   rest as they were.
   */
  ghost predicate RestoredUpTo(live: Dict<Property>, orig: Dict<Property>, out: Dict<Property>, n: nat) {
    && n <= |live|
    && Keys(out) == Keys(live)
    && (forall i :: 0 <= i < n ==>
          Get(orig, live[i].0).Some? && out[i].1 == RestoreProperty(live[i].1, Get(orig, live[i].0).value))
    && (forall i :: n <= i < |live| ==> out[i] == live[i])
  }

  /**
   The inner loop over one group's properties: restores them in order and
   stops at the first property the reference group lacks, reporting its name.
   */
  function RestoreGroup(live: Dict<Property>, orig: Dict<Property>): (r: (Dict<Property>, Option<string>))
    ensures Keys(r.0) == Keys(live)
  {
    if |live| == 0 then ([], None)
    else
      match Get(orig, live[0].0)
      case None => (live, Some(live[0].0))
      case Some(o) =>
        var rest := RestoreGroup(live[1..], orig);
        KeysCons((live[0].0, RestoreProperty(live[0].1, o)), rest.0);
        KeysCons(live[0], live[1..]);
        assert live == [live[0]] + live[1..];
        ([(live[0].0, RestoreProperty(live[0].1, o))] + rest.0, rest.1)
  }

  /**
   The pass over one group restores exactly the properties before the first
   one the reference lacks, leaves the others as they were, and throws naming
   that property; with no such property it restores all and does not throw.
   */
  lemma {:induction false} RestoreGroupSpec(live: Dict<Property>, orig: Dict<Property>)
    ensures var r := RestoreGroup(live, orig);
      var n := FirstMissing(live, orig);
      && RestoredUpTo(live, orig, r.0, n)
      && r.1 == (if n < |live| then Some(live[n].0) else None)
  {
    if |live| > 0 {
      var o := Get(orig, live[0].0);
      if o.Some? {
        RestoreGroupSpec(live[1..], orig);
        var rest := RestoreGroup(live[1..], orig);
        RestoredUpToCons(live, orig, rest.0, FirstMissing(live[1..], orig));
      }
    }
  }

  /** Restoring a present head property extends a restored tail by one position. */
  lemma RestoredUpToCons(live: Dict<Property>, orig: Dict<Property>, rest: Dict<Property>, n: nat)
    requires |live| > 0 && Get(orig, live[0].0).Some?
    requires RestoredUpTo(live[1..], orig, rest, n)
    ensures RestoredUpTo(live, orig, [(live[0].0, RestoreProperty(live[0].1, Get(orig, live[0].0).value))] + rest, n + 1)
  {
    var out := [(live[0].0, RestoreProperty(live[0].1, Get(orig, live[0].0).value))] + rest;
    ConsKeys(live, orig, rest, n, out);
    ConsRestored(live, orig, rest, n, out);
    ConsUntouched(live, orig, rest, n, out);
  }

  /** The keys survive putting the head back in front. */
  lemma ConsKeys(live: Dict<Property>, orig: Dict<Property>, rest: Dict<Property>, n: nat, out: Dict<Property>)
    requires |live| > 0 && |out| > 0 && out[0].0 == live[0].0 && out[1..] == rest
    requires RestoredUpTo(live[1..], orig, rest, n)
    ensures Keys(out) == Keys(live)
  {
    var tail := live[1..];
    forall i | 1 <= i < |live|
      ensures Keys(out)[i] == Keys(live)[i]
    {
      assert out[i] == rest[i - 1] && live[i] == tail[i - 1];
      assert Keys(rest)[i - 1] == Keys(tail)[i - 1];
    }
  }

  /** The restored prefix grows by the head. */
  lemma ConsRestored(live: Dict<Property>, orig: Dict<Property>, rest: Dict<Property>, n: nat, out: Dict<Property>)
    requires |live| > 0 && Get(orig, live[0].0).Some?
    requires out == [(live[0].0, RestoreProperty(live[0].1, Get(orig, live[0].0).value))] + rest
    requires RestoredUpTo(live[1..], orig, rest, n)
    ensures forall i :: 0 <= i < n + 1 ==>
      Get(orig, live[i].0).Some? && out[i].1 == RestoreProperty(live[i].1, Get(orig, live[i].0).value)
  {
    var tail := live[1..];
    forall i | 1 <= i < n + 1
      ensures Get(orig, live[i].0).Some? && out[i].1 == RestoreProperty(live[i].1, Get(orig, live[i].0).value)
    {
      assert out[i] == rest[i - 1] && live[i] == tail[i - 1];
    }
  }

  /** The untouched suffix stays untouched, one position further on. */
  lemma ConsUntouched(live: Dict<Property>, orig: Dict<Property>, rest: Dict<Property>, n: nat, out: Dict<Property>)
    requires |live| > 0 && |out| > 0 && out[1..] == rest
    requires RestoredUpTo(live[1..], orig, rest, n)
    ensures forall i :: n + 1 <= i < |live| ==> out[i] == live[i]
  {
    var tail := live[1..];
    forall i | n + 1 <= i < |live|
      ensures out[i] == live[i]
    {
      assert out[i] == rest[i - 1] && live[i] == tail[i - 1];
    }
  }

  /** Whether the reference has the group and every one of its live properties. */
  ghost predicate GroupCovered(entry: (string, Group), orig: Namespace) {
    && Get(orig, entry.0).Some?
    && forall i :: 0 <= i < |entry.1.props| ==> Get(Get(orig, entry.0).value.props, entry.1.props[i].0).Some?
  }

  /** The position of the first group whose restoration throws, or `|live|` when none does. */
  function FirstUncovered(live: Namespace, orig: Namespace): (n: nat)
    ensures n <= |live|
    ensures forall i :: 0 <= i < n ==> GroupCovered(live[i], orig)
    ensures n < |live| ==> !GroupCovered(live[n], orig)
  {
    if |live| == 0 then 0
    else
      match Get(orig, live[0].0)
      case None => 0
      case Some(og) =>
        if FirstMissing(live[0].1.props, og.props) < |live[0].1.props| then 0
        else 1 + FirstUncovered(live[1..], orig)
  }

  /** Whether the reference has every group and every property of the live namespace. */
  ghost predicate Covered(live: Namespace, orig: Namespace) {
    forall i :: 0 <= i < |live| ==> GroupCovered(live[i], orig)
  }

  /** What the group at the failing position looks like after the pass threw there. */
  function PartialGroup(entry: (string, Group), orig: Namespace): Group {
    match Get(orig, entry.0)
    case None => entry.1
    case Some(og) => Group(RestoreGroup(entry.1.props, og.props).0)
  }

  /** The exception thrown at the failing group. */
  function FaultAt(entry: (string, Group), orig: Namespace, space: Space): (m: Missing)
    ensures m.space == space && m.group == entry.0
  {
    match Get(orig, entry.0)
    case None => MissingGroup(space, entry.0)
    case Some(og) =>
      var n := FirstMissing(entry.1.props, og.props);
      MissingProperty(space, entry.0, if n < |entry.1.props| then entry.1.props[n].0 else "")
  }

  /** Whether `out` is the group `entry` with every property restored from the reference group. */
  ghost predicate GroupRestored(entry: (string, Group), orig: Namespace, out: Group) {
    && Get(orig, entry.0).Some?
    && RestoredUpTo(entry.1.props, Get(orig, entry.0).value.props, out.props, |entry.1.props|)
  }

  /**
   The outer loop over a namespace's groups: restores the groups in order and
   stops at the first lookup that throws.
   */
  function RestoreNamespace(live: Namespace, orig: Namespace, space: Space): (r: (Namespace, Option<Missing>))
    ensures Shape(r.0) == Shape(live)
  {
    if |live| == 0 then ([], None)
    else
      var name := live[0].0;
      assert live == [live[0]] + live[1..];
      ShapeCons(live[0], live[1..]);
      match Get(orig, name)
      case None => (live, Some(MissingGroup(space, name)))
      case Some(og) =>
        var g := RestoreGroup(live[0].1.props, og.props);
        var head := (name, Group(g.0));
        if g.1.Some? then
          ShapeCons(head, live[1..]);
          ([head] + live[1..], Some(MissingProperty(space, name, g.1.value)))
        else
          var rest := RestoreNamespace(live[1..], orig, space);
          ShapeCons(head, rest.0);
          ([head] + rest.0, rest.1)
  }

  /** What restoring a namespace states, for the pass and the first failing group. */
  ghost predicate NamespaceSpec(live: Namespace, orig: Namespace, space: Space, r: (Namespace, Option<Missing>)) {
    var n := FirstUncovered(live, orig);
    && |r.0| == |live|
    && (forall i :: 0 <= i < n ==> r.0[i].0 == live[i].0 && GroupRestored(live[i], orig, r.0[i].1))
    && (forall i :: n < i < |live| ==> r.0[i] == live[i])
    && (n < |live| ==> r.0[n] == (live[n].0, PartialGroup(live[n], orig)) && r.1 == Some(FaultAt(live[n], orig, space)))
    && (n == |live| <==> r.1 == None)
  }

  /** The case where the pass throws at the first group. */
  lemma RestoreNamespaceHeadFails(live: Namespace, orig: Namespace, space: Space)
    requires |live| > 0
    requires !GroupCovered(live[0], orig)
    ensures NamespaceSpec(live, orig, space, RestoreNamespace(live, orig, space))
  {
    var r := RestoreNamespace(live, orig, space);
    var og := Get(orig, live[0].0);
    if og.Some? {
      var g := RestoreGroup(live[0].1.props, og.value.props);
      RestoreGroupSpec(live[0].1.props, og.value.props);
      assert r.0[0] == (live[0].0, Group(g.0));
      assert r.0[1..] == live[1..];
    }
  }

  /** The case where the first group is restored in full and the pass goes on with the rest. */
  lemma RestoreNamespaceHeadPasses(live: Namespace, orig: Namespace, space: Space)
    requires |live| > 0
    requires GroupCovered(live[0], orig)
    requires NamespaceSpec(live[1..], orig, space, RestoreNamespace(live[1..], orig, space))
    ensures NamespaceSpec(live, orig, space, RestoreNamespace(live, orig, space))
  {
    var r := RestoreNamespace(live, orig, space);
    var n := FirstUncovered(live, orig);
    var og := Get(orig, live[0].0).value;
    var g := RestoreGroup(live[0].1.props, og.props);
    RestoreGroupSpec(live[0].1.props, og.props);
    var head := (live[0].0, Group(g.0));
    var rest := RestoreNamespace(live[1..], orig, space);
    assert r == ([head] + rest.0, rest.1);
    assert n == 1 + FirstUncovered(live[1..], orig);
    forall i | 0 < i < |live|
      ensures r.0[i] == rest.0[i - 1] && live[i] == live[1..][i - 1]
    {
    }
    forall i | 0 <= i < n
      ensures r.0[i].0 == live[i].0 && GroupRestored(live[i], orig, r.0[i].1)
    {
      if i == 0 {
        assert r.0[0] == head;
      }
    }
  }

  /**
   Groups before the first failing lookup are fully restored, the group it
   happens in is restored up to the failing property, later groups are
   untouched, and the pass throws exactly when some lookup fails.
   */
  lemma {:induction false} RestoreNamespaceSpec(live: Namespace, orig: Namespace, space: Space)
    ensures NamespaceSpec(live, orig, space, RestoreNamespace(live, orig, space))
  {
    if |live| > 0 {
      if GroupCovered(live[0], orig) {
        RestoreNamespaceSpec(live[1..], orig, space);
        RestoreNamespaceHeadPasses(live, orig, space);
      } else {
        RestoreNamespaceHeadFails(live, orig, space);
      }
    }
  }

  /** Whether `out` is `live` with every property of every group restored from the reference. */
  ghost predicate NamespaceRestored(live: Namespace, orig: Namespace, out: Namespace) {
    && |out| == |live|
    && forall i :: 0 <= i < |live| ==> out[i].0 == live[i].0 && GroupRestored(live[i], orig, out[i].1)
  }

  /**
   The RESTORE branch of applying the configuration: level events first, then
   settings. A lookup that fails among the level events throws before the
   settings are visited.
   */
  function RestoreSchema(live: Schema, orig: Schema): (r: (Schema, Option<Missing>))
    ensures Shape(r.0.events) == Shape(live.events) && Shape(r.0.settings) == Shape(live.settings)
    ensures r.1.None? <==> Covered(live.events, orig.events) && Covered(live.settings, orig.settings)
    ensures r.1.None? ==> NamespaceRestored(live.events, orig.events, r.0.events)
    ensures r.1.None? ==> NamespaceRestored(live.settings, orig.settings, r.0.settings)
    ensures r.1.Some? && r.1.value.space == LevelEvents ==> r.0.settings == live.settings
    ensures r.1.Some? && r.1.value.space == Settings ==> NamespaceRestored(live.events, orig.events, r.0.events)
  {
    var events := RestoreNamespace(live.events, orig.events, LevelEvents);
    NamespaceOutcome(live.events, orig.events, LevelEvents);
    if events.1.Some? then
      (Schema(events.0, live.settings), events.1)
    else
      var settings := RestoreNamespace(live.settings, orig.settings, Settings);
      NamespaceOutcome(live.settings, orig.settings, Settings);
      (Schema(events.0, settings.0), settings.1)
  }

  /** The pass over a namespace throws exactly when coverage fails, and otherwise restores everything. */
  lemma NamespaceOutcome(live: Namespace, orig: Namespace, space: Space)
    ensures var r := RestoreNamespace(live, orig, space);
      && (r.1.None? <==> Covered(live, orig))
      && (r.1.None? ==> NamespaceRestored(live, orig, r.0))
      && (r.1.Some? ==> r.1.value.space == space)
  {
    RestoreNamespaceSpec(live, orig, space);
  }

  /** Restoring a restored property from the same reference changes nothing. */
  lemma RestorePropertyIdempotent(p: Property, o: Property)
    ensures RestoreProperty(RestoreProperty(p, o), o) == RestoreProperty(p, o)
  {
    WriteTwice(p, LimitsFor(p.kind, o), LimitsFor(p.kind, o));
  }

  /** A second pass over a group reaches the same failing property and changes nothing more. */
  lemma {:induction false} RestoreGroupIdempotent(live: Dict<Property>, orig: Dict<Property>)
    ensures RestoreGroup(RestoreGroup(live, orig).0, orig) == RestoreGroup(live, orig)
  {
    if |live| > 0 {
      var o := Get(orig, live[0].0);
      if o.Some? {
        var rest := RestoreGroup(live[1..], orig);
        var head := (live[0].0, RestoreProperty(live[0].1, o.value));
        var once := [head] + rest.0;
        assert RestoreGroup(live, orig) == (once, rest.1);
        assert once[0] == head && once[1..] == rest.0;
        RestorePropertyIdempotent(live[0].1, o.value);
        RestoreGroupIdempotent(live[1..], orig);
      }
    }
  }

  /** A second pass over a namespace reaches the same failing lookup and changes nothing more. */
  lemma {:induction false} RestoreNamespaceIdempotent(live: Namespace, orig: Namespace, space: Space)
    ensures RestoreNamespace(RestoreNamespace(live, orig, space).0, orig, space) == RestoreNamespace(live, orig, space)
  {
    if |live| > 0 {
      var name := live[0].0;
      var og := Get(orig, name);
      if og.Some? {
        var g := RestoreGroup(live[0].1.props, og.value.props);
        RestoreGroupIdempotent(live[0].1.props, og.value.props);
        var head := (name, Group(g.0));
        if g.1.Some? {
          var once := [head] + live[1..];
          assert once[0] == head && once[1..] == live[1..];
        } else {
          var rest := RestoreNamespace(live[1..], orig, space);
          var once := [head] + rest.0;
          assert once[0] == head && once[1..] == rest.0;
          RestoreNamespaceIdempotent(live[1..], orig, space);
        }
      }
    }
  }

  /** RESTORE applied twice with the same reference leaves the schema, and the exception, as RESTORE applied once. */
  lemma RestoreIdempotent(live: Schema, orig: Schema)
    ensures RestoreSchema(RestoreSchema(live, orig).0, orig) == RestoreSchema(live, orig)
  {
    RestoreNamespaceIdempotent(live.events, orig.events, LevelEvents);
    RestoreNamespaceIdempotent(live.settings, orig.settings, Settings);
  }

  /** Whether each live property already has the limits its reference counterpart gives. */
  ghost predicate GroupAgrees(live: Dict<Property>, orig: Dict<Property>) {
    forall i :: 0 <= i < |live| ==>
      Get(orig, live[i].0).Some? && LimitsOf(live[i].1) == LimitsFor(live[i].1.kind, Get(orig, live[i].0).value)
  }

  /** Restoring a group that already agrees with the reference changes nothing and does not throw. */
  lemma {:induction false} RestoreAgreeingGroup(live: Dict<Property>, orig: Dict<Property>)
    requires GroupAgrees(live, orig)
    ensures RestoreGroup(live, orig) == (live, None)
  {
    if |live| > 0 {
      assert GroupAgrees(live[1..], orig) by {
        forall i | 0 <= i < |live[1..]|
          ensures live[1..][i] == live[i + 1]
        {
        }
      }
      RestoreAgreeingGroup(live[1..], orig);
      WriteOwn(live[0].1);
      assert live == [live[0]] + live[1..];
    }
  }

  /** Whether every group of the live namespace is in the reference and agrees with it. */
  ghost predicate Agrees(live: Namespace, orig: Namespace) {
    forall i :: 0 <= i < |live| ==>
      Get(orig, live[i].0).Some? && GroupAgrees(live[i].1.props, Get(orig, live[i].0).value.props)
  }

  /** Restoring a namespace that already agrees with the reference changes nothing and does not throw. */
  lemma {:induction false} RestoreAgreeingNamespace(live: Namespace, orig: Namespace, space: Space)
    requires Agrees(live, orig)
    ensures RestoreNamespace(live, orig, space) == (live, None)
  {
    if |live| > 0 {
      var og := Get(orig, live[0].0).value;
      RestoreAgreeingGroup(live[0].1.props, og.props);
      assert Agrees(live[1..], orig) by {
        forall i | 0 <= i < |live[1..]|
          ensures live[1..][i] == live[i + 1]
        {
        }
      }
      RestoreAgreeingNamespace(live[1..], orig, space);
      assert (live[0].0, Group(live[0].1.props)) == live[0];
      assert live == [live[0]] + live[1..];
    }
  }

  /** A live schema that already has the reference's limits is left exactly as it is by RESTORE. */
  lemma RestoreAgreeing(live: Schema, orig: Schema)
    requires Agrees(live.events, orig.events) && Agrees(live.settings, orig.settings)
    ensures RestoreSchema(live, orig) == (live, None)
  {
    RestoreAgreeingNamespace(live.events, orig.events, LevelEvents);
    RestoreAgreeingNamespace(live.settings, orig.settings, Settings);
  }
}

=== FILE: schema.dfy ===
/**
 The host's editor property schema: property records grouped by event type
 (level events) or by settings category, with the bound fields the limit
 engine rewrites.
 */
module Schema {
  import opened Wrappers
  import opened Dict

  /** C#'s 32-bit `int`, the type of the integer bound fields. */
  newtype int32 = x: int | -0x8000_0000 <= x < 0x8000_0000

  const Int32Min: int32 := -0x8000_0000
  const Int32Max: int32 := 0x7fff_ffff

  /**
   A single-precision float. The engine only assigns infinities and copies
   values, so finite values are kept abstract as reals and no arithmetic is defined.
   */
  datatype Float32 = NegativeInfinity | PositiveInfinity | NaN | Finite(value: real)

  /** Unity's `Vector2`. */
  datatype Vec2 = Vec2(x: Float32, y: Float32)

  /** `Vector2.negativeInfinity` and `Vector2.positiveInfinity`. */
  const NegativeInfinityVec := Vec2(NegativeInfinity, NegativeInfinity)
  const PositiveInfinityVec := Vec2(PositiveInfinity, PositiveInfinity)

  /**
   A property's type tag. The four bounded kinds are those the engine
   rewrites; `Other` stands for every remaining host type tag.
   */
  datatype Kind = Color | Int | Float | Vector2 | Enum(enumType: string) | Export | Other(tag: string) {
    predicate Bounded() {
      Color? || Int? || Float? || Vector2?
    }
  }

  /**
   One editable property (the host's `PropertyInfo`). `defaultValue` stands
   for all fields the engine never touches.
   */
  datatype Property = Property(
    kind: Kind,
    colorUsesAlpha: bool,
    intMin: int32,
    intMax: int32,
    floatMin: Float32,
    floatMax: Float32,
    minVec: Vec2,
    maxVec: Vec2,
    defaultValue: Option<string>)

  /** One event type's or one settings category's properties, keyed by property name. */
  datatype Group = Group(props: Dict<Property>)

  /** Groups keyed by event type name or settings category name. */
  type Namespace = Dict<Group>

  /** The two group collections: `levelEventsInfo` and `settingsInfo`. */
  datatype Schema = Schema(events: Namespace, settings: Namespace)

  /** The bound fields that a kind makes meaningful, as one value. */
  datatype Limits =
    | AlphaLimit(usesAlpha: bool)
    | IntLimits(imin: int32, imax: int32)
    | FloatLimits(fmin: Float32, fmax: Float32)
    | VectorLimits(vmin: Vec2, vmax: Vec2)
    | NoLimits

  /** Whether `l` is the shape of limits that kind `k` has. */
  predicate Fits(k: Kind, l: Limits) {
    match k
    case Color => l.AlphaLimit?
    case Int => l.IntLimits?
    case Float => l.FloatLimits?
    case Vector2 => l.VectorLimits?
    case _ => l.NoLimits?
  }

  /** The fields of `q` that a property of kind `k` reads as its limits. */
  function LimitsFor(k: Kind, q: Property): (l: Limits)
    ensures Fits(k, l)
  {
    match k
    case Color => AlphaLimit(q.colorUsesAlpha)
    case Int => IntLimits(q.intMin, q.intMax)
    case Float => FloatLimits(q.floatMin, q.floatMax)
    case Vector2 => VectorLimits(q.minVec, q.maxVec)
    case _ => NoLimits
  }

  /** A property's own limits. */
  function LimitsOf(p: Property): Limits {
    LimitsFor(p.kind, p)
  }

  /** Overwrites the fields that `l` carries, leaving every other field as it was. */
  function WithLimits(p: Property, l: Limits): Property {
    match l
    case AlphaLimit(a) => p.(colorUsesAlpha := a)
    case IntLimits(lo, hi) => p.(intMin := lo, intMax := hi)
    case FloatLimits(lo, hi) => p.(floatMin := lo, floatMax := hi)
    case VectorLimits(lo, hi) => p.(minVec := lo, maxVec := hi)
    case NoLimits => p
  }

  /** Writing back a property's own limits changes nothing. */
  lemma WriteOwn(p: Property)
    ensures WithLimits(p, LimitsOf(p)) == p
  {
  }

  /** A second write of limits that fit the kind replaces the first entirely. */
  lemma WriteTwice(p: Property, l: Limits, l': Limits)
    requires Fits(p.kind, l) && Fits(p.kind, l')
    ensures WithLimits(WithLimits(p, l), l') == WithLimits(p, l')
  {
  }

  /** Two properties that differ at most in their limits. */
  predicate SameBesidesLimits(p: Property, q: Property) {
    p.kind == q.kind && WithLimits(q, LimitsOf(p)) == p
  }

  /** The group and property names of a namespace, in enumeration order. */
  function Shape(ns: Namespace): seq<(string, seq<string>)> {
    seq(|ns|, i requires 0 <= i < |ns| => (ns[i].0, Keys(ns[i].1.props)))
  }

  /** Namespaces of the same shape have the same groups, with the same property names. */
  lemma {:induction false} ShapeGet(a: Namespace, b: Namespace, k: string)
    requires Shape(a) == Shape(b)
    ensures Get(a, k).Some? == Get(b, k).Some?
    ensures Get(a, k).Some? ==> Keys(Get(a, k).value.props) == Keys(Get(b, k).value.props)
  {
    assert |a| == |Shape(a)| == |Shape(b)| == |b|;
    if |a| > 0 {
      assert Shape(a)[0] == Shape(b)[0];
      assert Shape(a[1..]) == Shape(a)[1..];
      assert Shape(b[1..]) == Shape(b)[1..];
      ShapeGet(a[1..], b[1..], k);
    }
  }

  /** Namespaces of the same shape have the same group names. */
  lemma ShapeKeys(a: Namespace, b: Namespace)
    requires Shape(a) == Shape(b)
    ensures Keys(a) == Keys(b)
  {
    assert |a| == |Shape(a)| == |Shape(b)| == |b|;
    forall i | 0 <= i < |a|
      ensures a[i].0 == b[i].0
    {
      assert Shape(a)[i] == Shape(b)[i];
    }
  }

  /** The shape of a namespace with a known first group. */
  lemma ShapeCons(e: (string, Group), ns: Namespace)
    ensures Shape([e] + ns) == [(e.0, Keys(e.1.props))] + Shape(ns)
  {
  }
}

=== FILE: toggle.dfy ===
/**
 The "more editor settings" feature: two synthetic properties added to, or
 removed from, the host's `MiscSettings` settings group.
 */
module Toggle {
  import opened Wrappers
  import opened Dict
  import opened Schema

  const MiscSettings := "MiscSettings"
  const LegacyFlashName := "useLegacyFlash"
  const ConvertFloorMeshName := "convertFloorMesh"

  /**
   A property built from a name, a type tag and an optional default. The host's
   `PropertyInfo` constructor is not part of this model; the limit fields get
   placeholder values, which nothing reads for the Enum and Export kinds.
   */
  function Synthetic(kind: Kind, defaultValue: Option<string>): (p: Property)
    ensures p.kind == kind && p.defaultValue == defaultValue
  {
    Property(kind, false, 0, 0, Finite(0.0), Finite(0.0), Vec2(Finite(0.0), Finite(0.0)), Vec2(Finite(0.0), Finite(0.0)), defaultValue)
  }

  /** `useLegacyFlash`: an `Enum:Toggle` property that defaults to `Disabled`. */
  const LegacyFlash := Synthetic(Enum("Toggle"), Some("Disabled"))

  /** `convertFloorMesh`: an `Export` property with no default. */
  const ConvertFloorMesh := Synthetic(Export, None)

  /** The exceptions the feature's schema edits can throw. */
  datatype ToggleError =
    | NullSettings        // the host's settings table is null: NullReferenceException
    | NoMiscSettings      // the table lacks `MiscSettings`: KeyNotFoundException

  /** Adds both synthetic properties, overwriting any entries of the same names. */
  function AddSynthetic(props: Dict<Property>): Dict<Property> {
    Put(Put(props, LegacyFlashName, LegacyFlash), ConvertFloorMeshName, ConvertFloorMesh)
  }

  /** Removes both synthetic properties; an absent name is a no-op. */
  function RemoveSynthetic(props: Dict<Property>): Dict<Property> {
    Remove(Remove(props, LegacyFlashName), ConvertFloorMeshName)
  }

  /** Rewrites the `MiscSettings` group's properties with `edit`, or reports why that throws. */
  function EditMisc(settings: Option<Namespace>, edit: Dict<Property> -> Dict<Property>)
    : Result<Option<Namespace>, ToggleError>
  {
    match settings
    case None => Failure(NullSettings)
    case Some(ns) =>
      match Get(ns, MiscSettings)
      case None => Failure(NoMiscSettings)
      case Some(g) => Success(Some(Put(ns, MiscSettings, Group(edit(g.props)))))
  }

  /**
   Removing the synthetic properties, as `StopTweaks` and a disabled
   `CheckMoreEditorSettings` do: only the two names go; the other properties
   and all other groups are kept. Nothing catches the exceptions.
   */
  function RemoveFeature(settings: Option<Namespace>): (r: Result<Option<Namespace>, ToggleError>)
    ensures settings.None? ==> r == Failure(NullSettings)
    ensures settings.Some? && MiscSettings !in Keys(settings.value) ==> r == Failure(NoMiscSettings)
    ensures settings.Some? && MiscSettings in Keys(settings.value) ==>
      && r.Success? && r.value.Some?
      && Keys(r.value.value) == Keys(settings.value)
      && (forall k :: k != MiscSettings ==> Get(r.value.value, k) == Get(settings.value, k))
      && var before := Get(settings.value, MiscSettings).value.props;
         var after := Get(r.value.value, MiscSettings).value.props;
         && Get(after, LegacyFlashName) == None
         && Get(after, ConvertFloorMeshName) == None
         && (forall k :: k != LegacyFlashName && k != ConvertFloorMeshName ==> Get(after, k) == Get(before, k))
  {
    var r := EditMisc(settings, RemoveSynthetic);
    if settings.Some? && MiscSettings in Keys(settings.value) then
      var before := Get(settings.value, MiscSettings).value.props;
      forall k ensures Get(r.value.value, k) == if k == MiscSettings then Some(Group(RemoveSynthetic(before))) else Get(settings.value, k) {
        PutGet(settings.value, MiscSettings, Group(RemoveSynthetic(before)), k);
      }
      forall k ensures Get(RemoveSynthetic(before), k) == if k == LegacyFlashName || k == ConvertFloorMeshName then None else Get(before, k) {
        RemoveGet(before, LegacyFlashName, k);
        RemoveGet(Remove(before, LegacyFlashName), ConvertFloorMeshName, k);
      }
      r
    else r
  }

  /**
   Adding the synthetic properties, as an enabled `CheckMoreEditorSettings`
   does: both names read the synthetic definitions afterwards, whatever they
   read before, and nothing else changes. A null settings table is caught and
   leaves everything as it was; a missing `MiscSettings` group is not caught.
   */
  function AddFeature(settings: Option<Namespace>): (r: Result<Option<Namespace>, ToggleError>)
    ensures settings.None? ==> r == Success(None)
    ensures settings.Some? && MiscSettings !in Keys(settings.value) ==> r == Failure(NoMiscSettings)
    ensures settings.Some? && MiscSettings in Keys(settings.value) ==>
      && r.Success? && r.value.Some?
      && Keys(r.value.value) == Keys(settings.value)
      && (forall k :: k != MiscSettings ==> Get(r.value.value, k) == Get(settings.value, k))
      && var before := Get(settings.value, MiscSettings).value.props;
         var after := Get(r.value.value, MiscSettings).value.props;
         && Get(after, LegacyFlashName) == Some(LegacyFlash)
         && Get(after, ConvertFloorMeshName) == Some(ConvertFloorMesh)
         && (forall k :: k != LegacyFlashName && k != ConvertFloorMeshName ==> Get(after, k) == Get(before, k))
  {
    if settings.None? then Success(None)
    else
      var r := EditMisc(settings, AddSynthetic);
      if MiscSettings in Keys(settings.value) then
        var before := Get(settings.value, MiscSettings).value.props;
        forall k ensures Get(r.value.value, k) == if k == MiscSettings then Some(Group(AddSynthetic(before))) else Get(settings.value, k) {
          PutGet(settings.value, MiscSettings, Group(AddSynthetic(before)), k);
        }
        forall k ensures Get(AddSynthetic(before), k)
          == if k == ConvertFloorMeshName then Some(ConvertFloorMesh) else if k == LegacyFlashName then Some(LegacyFlash) else Get(before, k) {
          PutGet(before, LegacyFlashName, LegacyFlash, k);
          PutGet(Put(before, LegacyFlashName, LegacyFlash), ConvertFloorMeshName, ConvertFloorMesh, k);
        }
        r
      else r
  }

  /** `CheckMoreEditorSettings`: adds the synthetic properties when the feature is on, removes them when it is off. */
  function CheckMoreEditorSettings(enabled: bool, settings: Option<Namespace>): (r: Result<Option<Namespace>, ToggleError>)
    ensures r.Failure? <==> (settings.None? && !enabled) || (settings.Some? && MiscSettings !in Keys(settings.value))
    ensures settings.Some? && MiscSettings in Keys(settings.value) ==>
      && r.Success? && r.value.Some?
      && Keys(r.value.value) == Keys(settings.value)
      && var after := Get(r.value.value, MiscSettings).value.props;
         && (LegacyFlashName in Keys(after) <==> enabled)
         && (ConvertFloorMeshName in Keys(after) <==> enabled)
  {
    if enabled then AddFeature(settings) else RemoveFeature(settings)
  }

  /** Adding then removing the synthetic properties drops exactly what was added. */
  lemma {:induction false} RemoveAdded(props: Dict<Property>)
    requires LegacyFlashName !in Keys(props) && ConvertFloorMeshName !in Keys(props)
    ensures RemoveSynthetic(AddSynthetic(props)) == props
  {
    PutFresh(props, LegacyFlashName, LegacyFlash);
    var once := props + [(LegacyFlashName, LegacyFlash)];
    assert Keys(once) == Keys(props) + [LegacyFlashName];
    PutFresh(once, ConvertFloorMeshName, ConvertFloorMesh);
    var added := props + [(LegacyFlashName, LegacyFlash), (ConvertFloorMeshName, ConvertFloorMesh)];
    assert AddSynthetic(props) == added;
    RemoveAppend(props, [(LegacyFlashName, LegacyFlash), (ConvertFloorMeshName, ConvertFloorMesh)], LegacyFlashName);
    assert Remove(added, LegacyFlashName) == props + [(ConvertFloorMeshName, ConvertFloorMesh)];
    RemoveAppend(props, [(ConvertFloorMeshName, ConvertFloorMesh)], ConvertFloorMeshName);
    assert props + [] == props;
  }

  /**
   Turning the feature on and then off gives back the settings table exactly,
   when the two names were absent from `MiscSettings` beforehand.
   */
  lemma EnableThenDisable(ns: Namespace)
    requires MiscSettings in Keys(ns)
    requires LegacyFlashName !in Keys(Get(ns, MiscSettings).value.props)
    requires ConvertFloorMeshName !in Keys(Get(ns, MiscSettings).value.props)
    ensures var on := CheckMoreEditorSettings(true, Some(ns));
      on.Success? && CheckMoreEditorSettings(false, on.value) == Success(Some(ns))
  {
    var props := Get(ns, MiscSettings).value.props;
    RemoveAdded(props);
    var added := Put(ns, MiscSettings, Group(AddSynthetic(props)));
    PutGet(ns, MiscSettings, Group(AddSynthetic(props)), MiscSettings);
    PutPut(ns, MiscSettings, Group(AddSynthetic(props)), Group(props));
    PutSame(ns, MiscSettings);
  }

  /**
   When `MiscSettings` already had one of the two names, enabling then
   disabling the feature loses that property: the settings do not come back.
   */
  lemma EnableThenDisableLoses(ns: Namespace)
    requires MiscSettings in Keys(ns)
    requires LegacyFlashName in Keys(Get(ns, MiscSettings).value.props)
          || ConvertFloorMeshName in Keys(Get(ns, MiscSettings).value.props)
    ensures var on := CheckMoreEditorSettings(true, Some(ns));
      on.Success? && CheckMoreEditorSettings(false, on.value) != Success(Some(ns))
  {
    var on := AddFeature(Some(ns));
    var off := RemoveFeature(on.value);
    var before := Get(ns, MiscSettings).value.props;
    var after := Get(off.value.value, MiscSettings).value.props;
    assert Get(after, LegacyFlashName) == None && Get(after, ConvertFloorMeshName) == None;
    assert Get(before, LegacyFlashName).Some? || Get(before, ConvertFloorMeshName).Some?;
  }

  /** Turning the feature on twice is turning it on once. */
  lemma EnableTwice(settings: Option<Namespace>)
    requires CheckMoreEditorSettings(true, settings).Success?
    ensures CheckMoreEditorSettings(true, CheckMoreEditorSettings(true, settings).value)
         == CheckMoreEditorSettings(true, settings)
  {
    if settings.Some? {
      var ns := settings.value;
      var props := Get(ns, MiscSettings).value.props;
      var once := AddSynthetic(props);
      PutGet(ns, MiscSettings, Group(once), MiscSettings);
      PutPut(ns, MiscSettings, Group(once), Group(AddSynthetic(once)));
      PutPut(props, LegacyFlashName, LegacyFlash, LegacyFlash);
      // The second pass writes the same two values over the first pass's entries.
      PutPut(Put(props, LegacyFlashName, LegacyFlash), ConvertFloorMeshName, ConvertFloorMesh, ConvertFloorMesh);
      assert AddSynthetic(once) == once by {
        AddTwice(props);
      }
    }
  }

  /** Writing the two synthetic entries again leaves them as they are. */
  lemma AddTwice(props: Dict<Property>)
    ensures AddSynthetic(AddSynthetic(props)) == AddSynthetic(props)
  {
    var a := Put(props, LegacyFlashName, LegacyFlash);
    var b := Put(a, ConvertFloorMeshName, ConvertFloorMesh);
    PutGet(props, LegacyFlashName, LegacyFlash, LegacyFlashName);
    PutGet(a, ConvertFloorMeshName, ConvertFloorMesh, LegacyFlashName);
    assert Get(b, LegacyFlashName) == Some(LegacyFlash);
    PutSame(b, LegacyFlashName);
    assert Put(b, LegacyFlashName, LegacyFlash) == b;
    PutGet(a, ConvertFloorMeshName, ConvertFloorMesh, ConvertFloorMeshName);
    assert Get(b, ConvertFloorMeshName) == Some(ConvertFloorMesh);
    PutSame(b, ConvertFloorMeshName);
  }

  /** Turning the feature off twice is turning it off once. */
  lemma DisableTwice(settings: Option<Namespace>)
    requires CheckMoreEditorSettings(false, settings).Success?
    ensures CheckMoreEditorSettings(false, CheckMoreEditorSettings(false, settings).value)
         == CheckMoreEditorSettings(false, settings)
  {
    var ns := settings.value;
    var props := Get(ns, MiscSettings).value.props;
    var once := RemoveSynthetic(props);
    PutGet(ns, MiscSettings, Group(once), MiscSettings);
    PutPut(ns, MiscSettings, Group(once), Group(RemoveSynthetic(once)));
    assert RemoveSynthetic(once) == once by {
      assert LegacyFlashName !in Keys(once);
      assert ConvertFloorMeshName !in Keys(once);
      assert Remove(once, LegacyFlashName) == once;
    }
  }
}

=== FILE: version_gate.dfy ===
/**
 The version gate run when the mod loads: an optional `Version.txt` may
 override the comparison against the host's release number, which is a
 comparator token followed by a number. The gate decides whether the mod
 activates.
 */
module VersionGate {
  import opened Wrappers
  import opened Schema
  import opened Decimal

  /** How the host's release number must compare with the target. */
  datatype Mode = Exact | NotLess | NotBigger | Bigger | Less

  /** The comparison the gate applies. */
  datatype Rule = Rule(mode: Mode, target: int32)

  /** The release number the mod is built for. */
  const Baseline: int32 := 76

  /** The rule when there is no override file. */
  const DefaultRule := Rule(Exact, Baseline)

  /** The exception loading throws: `Substring(2)` on a one-character file. */
  datatype LoadError = SubstringOutOfRange

  predicate StartsWith(s: string, prefix: string) {
    |prefix| <= |s| && s[..|prefix|] == prefix
  }

  /** C#'s `s.Substring(start)`, which throws when `start` is past the end. */
  function Substring(s: string, start: nat): Result<string, LoadError> {
    if start <= |s| then Success(s[start..]) else Failure(SubstringOutOfRange)
  }

  /**
   The comparator token at the head of the override file, tried longest-first,
   and how many characters the code cuts off for it: two for every token,
   `>` and `<` included.
   */
  function SplitToken(value: string): (r: (Mode, nat))
    ensures r.1 == 2 <==> StartsWith(value, ">") || StartsWith(value, "<") || StartsWith(value, "==")
    ensures r.1 in {0, 2}
    ensures r.1 == 0 ==> r.0 == Exact
    ensures r.0 == NotLess <==> StartsWith(value, ">=")
    ensures r.0 == NotBigger <==> StartsWith(value, "<=")
    ensures r.0 == Bigger <==> StartsWith(value, ">") && !StartsWith(value, ">=")
    ensures r.0 == Less <==> StartsWith(value, "<") && !StartsWith(value, "<=")
  {
    if StartsWith(value, ">=") then (NotLess, 2)
    else if StartsWith(value, "<=") then (NotBigger, 2)
    else if StartsWith(value, ">") then (Bigger, 2)
    else if StartsWith(value, "<") then (Less, 2)
    else if StartsWith(value, "==") then (Exact, 2)
    else (Exact, 0)
  }

  /** Cutting the token off throws exactly for a file that is a lone `>` or `<`. */
  lemma CutFails(value: string)
    ensures SplitToken(value).1 > |value| <==> value == ">" || value == "<"
  {
    if |value| == 1 && (value[0] == '>' || value[0] == '<') {
      assert value[..1] == [value[0]];
      assert value == [value[0]];
    }
  }

  /**
   Reading the override file as written. A number that does not parse leaves
   the baseline as the target but keeps the mode the token chose.
   */
  function ParseRule(file: Option<string>): (r: Result<Rule, LoadError>)
    ensures r.Failure? <==> file == Some(">") || file == Some("<")
    ensures file.None? ==> r == Success(DefaultRule)
  {
    match file
    case None => Success(DefaultRule)
    case Some(value) =>
      CutFails(value);
      var (mode, cut) := SplitToken(value);
      match Substring(value, cut)
      case Failure(e) => Failure(e)
      case Success(rest) => Success(Rule(mode, TryParse(rest).GetOr(Baseline)))
  }

  /** The switch on the mode, which returns false whenever the host's number fails the comparison. */
  predicate Admits(rule: Rule, version: int32)
    ensures Admits(rule, version) <==> Holds(rule.mode, version as int, rule.target as int)
  {
    match rule.mode
    case Exact => !(version != rule.target)
    case NotLess => !(version < rule.target)
    case NotBigger => !(version > rule.target)
    case Bigger => !(version <= rule.target)
    case Less => !(version >= rule.target)
  }

  /**
   Whether the mod activates, given the host's release number (absent when the
   host does not expose it as an int) and the override file's text (absent
   when there is no file). The file is read before the release number is
   checked, so a file that makes reading throw wins over an absent number.
   */
  function Gate(host: Option<int32>, file: Option<string>): (r: Result<bool, LoadError>)
    ensures r.Failure? <==> file == Some(">") || file == Some("<")
    ensures host.None? ==> r != Success(true)
    ensures file.None? && host.Some? ==> r == Success(host.value == Baseline)
  {
    match ParseRule(file)
    case Failure(e) => Failure(e)
    case Success(rule) =>
      if host.None? then Success(false) else Success(Admits(rule, host.value))
  }

  /** The comparison each mode names, as a truth table. */
  predicate Holds(mode: Mode, version: int, target: int) {
    match mode
    case Exact => version == target
    case NotLess => version >= target
    case NotBigger => version <= target
    case Bigger => version > target
    case Less => version < target
  }

  /** The mode a two-character token selects. */
  function TokenMode(token: string): Mode
    requires token in [">=", "<=", "=="]
  {
    if token == ">=" then NotLess else if token == "<=" then NotBigger else Exact
  }

  /** Once the token is known, the gate compares with the number after the cut, or with the baseline. */
  lemma GateAfterToken(version: int32, value: string, mode: Mode, cut: nat)
    requires SplitToken(value) == (mode, cut) && cut <= |value|
    ensures Gate(Some(version), Some(value))
         == Success(Holds(mode, version as int, TryParse(value[cut..]).GetOr(Baseline) as int))
  {
    var rule := Rule(mode, TryParse(value[cut..]).GetOr(Baseline));
    assert ParseRule(Some(value)) == Success(rule);
  }

  /**
   With a `>=`, `<=` or `==` token, the gate activates exactly when the host's
   number stands in that relation to the number after the token, or to the
   baseline when that text is not a number.
   */
  lemma GateTwoCharToken(version: int32, token: string, rest: string)
    requires token in [">=", "<=", "=="]
    ensures Gate(Some(version), Some(token + rest))
         == Success(Holds(TokenMode(token), version as int, TryParse(rest).GetOr(Baseline) as int))
  {
    var value := token + rest;
    assert value[..2] == token;
    assert value[..1] == token[..1];
    assert SplitToken(value) == (TokenMode(token), 2);
    assert value[2..] == rest;
    GateAfterToken(version, value, TokenMode(token), 2);
  }

  /**
   With a `>` or `<` token not followed by `=`, the character after the token
   is cut off as well: the host's number is compared with the number after that
   second character, or with the baseline.
   */
  lemma GateOneCharToken(version: int32, value: string, mode: Mode)
    requires |value| >= 2 && value[1] != '='
    requires (mode == Bigger && value[0] == '>') || (mode == Less && value[0] == '<')
    ensures Gate(Some(version), Some(value))
         == Success(Holds(mode, version as int, TryParse(value[2..]).GetOr(Baseline) as int))
  {
    SplitOneCharToken(value, mode);
    GateAfterToken(version, value, mode, 2);
  }

  /** A `>` or `<` not followed by `=` selects its one-character mode, with a cut of two. */
  lemma SplitOneCharToken(value: string, mode: Mode)
    requires |value| >= 2 && value[1] != '='
    requires (mode == Bigger && value[0] == '>') || (mode == Less && value[0] == '<')
    ensures SplitToken(value) == (mode, 2)
  {
    assert value[..2][1] == value[1];
    assert !StartsWith(value, ">=") && !StartsWith(value, "<=");
    assert value[..1] == [value[0]];
    if mode == Bigger {
      assert StartsWith(value, ">");
    } else {
      assert !StartsWith(value, ">") && StartsWith(value, "<");
    }
  }

  /**
   A file with no comparator token keeps the exact comparison and reads its
   whole text as the target, falling back to the baseline.
   */
  lemma GateNoToken(version: int32, value: string)
    requires |value| == 0 || (value[0] != '>' && value[0] != '<')
    requires !StartsWith(value, "==")
    ensures Gate(Some(version), Some(value)) == Success(version == TryParse(value).GetOr(Baseline))
  {
    assert SplitToken(value) == (Exact, 0);
    assert value[0..] == value;
    GateAfterToken(version, value, Exact, 0);
  }

  /** The rendering of a two-digit number. */
  lemma DigitsOf(n: nat)
    requires 10 <= n < 100
    ensures Digits(n) == ['0' + (n / 10) as char, '0' + (n % 10) as char]
  {
  }

  /**
   An override written with a two-character token activates exactly when the
   host's number stands in that relation to the written target: `>=70` admits
   build 76 and rejects build 69.
   */
  lemma GateTwoCharRule(version: int32, rule: Rule)
    requires rule.mode in {Exact, NotLess, NotBigger}
    ensures Gate(Some(version), Some(RuleText(rule))) == Success(Holds(rule.mode, version as int, rule.target as int))
  {
    ParseRuleRoundTripTwoChar(rule);
  }

  /** An override without a token and without a digit ("garbage", say) falls back to the exact baseline comparison. */
  lemma GateNotANumber(version: int32, value: string)
    requires |value| == 0 || (value[0] != '>' && value[0] != '<')
    requires !StartsWith(value, "==")
    requires NoDigit(value)
    ensures Gate(Some(version), Some(value)) == Success(version == Baseline)
  {
    GateNoToken(version, value);
  }

  /** A two-character token followed by no digit (`>=abc`, say) keeps its mode but compares with the baseline. */
  lemma GateTokenWithoutNumber(version: int32, token: string, rest: string)
    requires token in [">=", "<=", "=="]
    requires NoDigit(rest)
    ensures Gate(Some(version), Some(token + rest)) == Success(Holds(TokenMode(token), version as int, Baseline as int))
  {
    GateTwoCharToken(version, token, rest);
  }

  /**
   A two-character token followed by a number too large for 32 bits keeps its
   mode but compares with the baseline: `>=99999999999` admits build 76 and up.
   */
  lemma GateTokenOutOfRange(version: int32, token: string, m: nat)
    requires token in [">=", "<=", "=="]
    requires m >= 0x8000_0000
    ensures Gate(Some(version), Some(token + Digits(m))) == Success(Holds(TokenMode(token), version as int, Baseline as int))
  {
    ParseOutOfRange(m, "", "");
    assert "" + Digits(m) + "" == Digits(m);
    GateTwoCharToken(version, token, Digits(m));
  }

  /**
   A bare number, with any white space around it (a trailing newline, say),
   is an exact-match override for that number.
   */
  lemma GatePaddedNumber(version: int32, n: int32, before: string, after: string)
    requires AllWhite(before) && AllWhite(after)
    ensures Gate(Some(version), Some(before + Format(n) + after)) == Success(version == n)
  {
    var value := before + Format(n) + after;
    FirstOfPadded(n, before, after);
    SplitNoToken(value);
    assert value[0..] == value;
    ParseFormat(n, before, after);
    GateAfterToken(version, value, Exact, 0);
  }

  /** A padded number opens with white space, a sign or a digit. */
  lemma FirstOfPadded(n: int32, before: string, after: string)
    requires AllWhite(before)
    ensures var value := before + Format(n) + after;
      |value| > 0 && (IsWhite(value[0]) || value[0] == '-' || IsDigit(value[0]))
  {
    var f := Format(n);
    assert f[0] == '-' || IsDigit(f[0]);
    if |before| == 0 {
      assert (before + f + after)[0] == f[0];
    }
  }

  /** A text that opens with white space, a sign or a digit carries no comparator token. */
  lemma SplitNoToken(value: string)
    requires |value| > 0 && (IsWhite(value[0]) || value[0] == '-' || IsDigit(value[0]))
    ensures SplitToken(value) == (Exact, 0)
  {
    assert value[..1][0] == value[0];
    if |value| >= 2 {
      assert value[..2][0] == value[0];
    }
  }

  /** The token that selects each mode. */
  function ModeToken(mode: Mode): string {
    match mode
    case Exact => "=="
    case NotLess => ">="
    case NotBigger => "<="
    case Bigger => ">"
    case Less => "<"
  }

  /** The override file text that states a rule: its token, then its target as `ToString()` prints it. */
  function RuleText(rule: Rule): string {
    ModeToken(rule.mode) + Format(rule.target)
  }

  /** The corrected token split: a one-character token cuts one character. */
  function SplitTokenIntended(value: string): (r: (Mode, nat))
    ensures r.1 <= |value|
  {
    if StartsWith(value, ">=") then (NotLess, 2)
    else if StartsWith(value, "<=") then (NotBigger, 2)
    else if StartsWith(value, ">") then (Bigger, 1)
    else if StartsWith(value, "<") then (Less, 1)
    else if StartsWith(value, "==") then (Exact, 2)
    else (Exact, 0)
  }

  /** Reading the override file with the corrected split; it never throws. */
  function ParseRuleIntended(file: Option<string>): Rule {
    match file
    case None => DefaultRule
    case Some(value) =>
      var (mode, cut) := SplitTokenIntended(value);
      Rule(mode, TryParse(value[cut..]).GetOr(Baseline))
  }

  /** The text of a rule splits into the rule's token and the rendered target. */
  lemma SplitRuleText(rule: Rule)
    ensures SplitTokenIntended(RuleText(rule)) == (rule.mode, |ModeToken(rule.mode)|)
    ensures RuleText(rule)[|ModeToken(rule.mode)|..] == Format(rule.target)
  {
    var token := ModeToken(rule.mode);
    var f := Format(rule.target);
    var text := token + f;
    assert f[0] == '-' || IsDigit(f[0]);
    assert text[..|token|] == token;
    assert text[..1] == token[..1];
    if |token| == 1 {
      assert text[..2] == token + [f[0]];
    } else {
      assert text[..2] == token;
    }
    assert text[|token|..] == f;
  }

  /** With the corrected split, every rule written out as text reads back as itself. */
  lemma ParseRuleIntendedRoundTrip(rule: Rule)
    ensures ParseRuleIntended(Some(RuleText(rule))) == rule
  {
    SplitRuleText(rule);
    ParseFormatBare(rule.target);
  }

  /** As written, the round trip holds for the two-character tokens. */
  lemma ParseRuleRoundTripTwoChar(rule: Rule)
    requires rule.mode in {Exact, NotLess, NotBigger}
    ensures ParseRule(Some(RuleText(rule))) == Success(rule)
  {
    SplitRuleText(rule);
    assert SplitToken(RuleText(rule)) == (rule.mode, 2);
    ParseFormatBare(rule.target);
  }

  /** A one-digit number renders as its single digit. */
  lemma FormatDigit(d: int32)
    requires 0 <= d < 10
    ensures Format(d) == ['0' + d as char]
  {
  }

  /**
   As written, the `>` token also cuts the first digit: the rule "greater than
   70" is written `>70` and reads back as "greater than 0", so every build
   above 0 activates, build 50 among them. For any two-digit target only the
   last digit survives.
   */
  lemma BiggerTokenDropsDigit(version: int32, target: int32)
    requires 10 <= target < 100
    ensures Gate(Some(version), Some(RuleText(Rule(Bigger, target)))) == Success(version as int > target as int % 10)
  {
    BiggerRuleText(target);
    GateOneCharToken(version, RuleText(Rule(Bigger, target)), Bigger);
  }

  /** The text of "greater than t", for a two-digit t: `>`, the tens digit, then the last digit alone. */
  lemma BiggerRuleText(target: int32)
    requires 10 <= target < 100
    ensures var value := RuleText(Rule(Bigger, target));
      && |value| == 3 && value[0] == '>' && value[1] != '='
      && TryParse(value[2..]) == Some((target % 10) as int32)
  {
    var value := RuleText(Rule(Bigger, target));
    BiggerRuleChars(target);
    var last := (target % 10) as int32;
    assert value[2..] == ['0' + last as char];
    DigitParses(last);
  }

  /** The characters of "greater than t", for a two-digit t. */
  lemma BiggerRuleChars(target: int32)
    requires 10 <= target < 100
    ensures RuleText(Rule(Bigger, target))
         == ['>', '0' + (target / 10) as char, '0' + (target % 10) as char]
  {
    DigitsOf(target as nat);
  }

  /** A single digit parses as its value. */
  lemma DigitParses(d: int32)
    requires 0 <= d < 10
    ensures TryParse(['0' + d as char]) == Some(d)
  {
    FormatDigit(d);
    ParseFormatBare(d);
  }
}

=== FILE: wrappers.dfy ===
/** Option and Result, the shapes used for nullable host values and for exceptions. */
module Wrappers {

  /** A value that may be absent, as a C# `null` or a missing file. */
  datatype Option<+T> = None | Some(value: T) {

    /** Returns the value in Some, or `default` when None. */
    function GetOr(default: T): T {
      match this
      case Some(v) => v
      case None => default
    }
  }

  /** The outcome of an operation that may throw: `Failure` carries the exception it throws. */
  datatype Result<+R, +E> = Success(value: R) | Failure(error: E)
}
